=== FILE: README.md ===
# GistDB document store, modelled in Dafny

GistDB is a JSON document-store API that keeps its data in GitHub Gists:

- a **database** is one gist;
- a **collection** is the file `<name>.json` of that gist, whose text is a JSON object;
- an **object** is one member of that object, keyed by a generated id.

Every write reads the whole gist, changes the decoded map in memory, and PATCHes the complete map back as the file's new content.

Search runs a substring matcher over a collection snapshot. It sits behind a get-or-compute cache. A sparse index pairs a sampled id-to-value map with one Bloom filter per field.

This project models that core as pure functions over immutable data.

- **Gists and the remote store** (`gists.dfy`):
  - The gists are a `map<string, Gist>` by gist id.
  - A file's content is abstracted to what the JSON parser makes of it: `Missing`, `Parsed(v)` or `Unparseable`.
  - The PATCH is GitHub's file-level merge.
  - What the remote side does is a parameter, `Net`: whether the read got a decodable reply, whether the write got a reply, and whether GitHub carried the write out.
  - `github_request` never looks at the HTTP status. A write GitHub refuses (401, 403, 404, 422) therefore still returns its JSON error body as a success, so the handler answers as if it had written while the store stays as it was (`Gists.Commit`). Likewise an id absent from the map stands for GitHub's error reply: a GET of such an id has no `files` object, and a PATCH to it changes nothing.
- **JSON** (`json.dfy`, `assoc.dfy`):
  - `serde_json::Value`, with objects as association lists in strictly increasing key order. That is the order serde_json's default `BTreeMap`-backed `Map` iterates in; the model assumes the `preserve_order` feature is off (see Left out).
  - `Map::insert` and `Map::remove` on those lists.
- **Snapshot search** (`search.dfy`): `search_json`, `matches_query` and `json_contains`.
- **Sparse index** (`sparse_index.dfy`):
  - `SparseIndex::new`, `create_index` and `exists_in_index`.
  - The Bloom filter is a set of bit positions together with the hash function the filter drew when it was created. It therefore may answer true for strings never inserted (`SparseIndex.FalsePositive`).
- **Handlers** (`objects.dfy`, `collections.dfy`, `databases.dfy`, `search_route.dfy`): each maps a store, and for search a cache, to an outcome and the next state.
  - An outcome is either the `status` code and `data` of the `api_response` envelope, which is always sent with HTTP 200, or an error propagated out of the handler with `?`.
- **Cache** (`cache.dfy`): `cached_search` over a `map<string, Json>`, keyed by the URL the key string parses to rather than by the string itself.
- **Cache-key URLs** (`url.dfy`): how the Workers cache, following the WHATWG URL Standard, reads a `https://gistdb.com/...` key. Leading and trailing controls and spaces are trimmed, tabs and newlines removed, the fragment dropped, `\` read as `/`, path segments percent-encoded, and `.` and `..` segments resolved.
- **Corrected cache key** (`scoped_key.dfy`): an escaped, URL-safe path naming gist, collection, field and query.
- **Cross-request properties** (`scenarios.dfy`).

Three facts about the code shape the search part of the model:

- The search cache key is the gist id and the query only; the collection and the field are not part of it (see Findings).
- Nothing ever invalidates a cached result. `SearchRoute.SecondRequestServedFirstAnswer` holds for any later store, so writes do not disturb a cached answer.
- `search_objects` never consults `SparseIndex`. The index is modelled on its own.

## Model

| member | source | states |
|---|---|---|
| Assoc.Insert | src/routes/object_routes.rs:40 | adding `k ↦ v` to an object map: afterwards `k` maps to `v`, every other key maps to what it did, the key set grows by `k` only, and key order is kept |
| Assoc.Remove | src/routes/object_routes.rs:158 | removing `k` from an object map: `k` is gone, every other key is unchanged, the key set shrinks by `k` only, and key order is kept |
| Json.ContainsIffOccurs | src/utils/search.rs:24 | the substring test used by the matcher holds exactly when the query occurs at some position of the string |
| Search.SearchMembers | src/utils/search.rs:9-13 | the loop collects exactly the ids whose value matches, in map order, without repeats, and never more than the map holds |
| Search.Search | src/utils/search.rs:6-17 | a non-object snapshot yields nothing; on an object, an id is listed iff its value matches; every listed id is a key of the snapshot; the list strictly increases |
| Search.SearchIsMatchingKeysInOrder | src/utils/search.rs:6-17 | on a well-formed object the answer is the unique increasing list of exactly the matching keys |
| Search.FieldMatch | src/utils/search.rs:21-25 | with a field `f`, a value matches iff it is an object with a member `f` that is a string containing the query; a missing or non-string member never matches |
| Search.ContainsIffSomeLeaf | src/utils/search.rs:30-37 | without a field, a value matches iff some string reachable through arrays and member values contains the query; numbers, booleans and null never match |
| Search.ContainsIffSomeLeafArray | src/utils/search.rs:33 | an array matches iff a string reachable from some element contains the query |
| Search.ContainsIffSomeLeafObject | src/utils/search.rs:34 | an object matches iff a string reachable from some member value contains the query |
| Search.EmptyQueryMatchesIffSomeString | src/utils/search.rs:32-35 | the empty query matches exactly the values from which at least one string is reachable, so `{"n": 1}` does not match it |
| Search.KeysNeverSearched | src/utils/search.rs:34 | renaming an object's members while keeping their values does not change whether it matches: keys are never searched |
| SparseIndex.FilterInsert | src/services/index_service.rs:38 | after inserting a string the filter contains it, and everything it contained before; its hash is kept and at most one bit is added |
| SparseIndex.FalsePositive | src/services/index_service.rs:46 | a filter can report a string that was never inserted, when it shares a bit with one that was |
| SparseIndex.ExistsInIndex | src/services/index_service.rs:44-50 | a field that was never indexed answers false for every value; an indexed field answers what its filter reports |
| SparseIndex.New | src/services/index_service.rs:11-16 | a fresh index has the given stride and answers false for every field and value |
| SparseIndex.Sample | src/services/index_service.rs:18-29 | the sampled map holds `id ↦ v` exactly for the entries at a 0-based position that is a multiple of the stride and whose value has the field with value `v`; every entry advances the position |
| SparseIndex.InsertStrings | src/services/index_service.rs:36-40 | the filter keeps its hash and gains exactly the bits of the string values of the sampled map; non-string values add nothing |
| SparseIndex.CreateIndex | src/services/index_service.rs:18-42 | a zero stride is allowed only for an empty snapshot; the returned map is the sample; the field's filter is created once, with the hash it draws then, and afterwards keeps that hash and only grows, by the string values' bits; every sampled string then exists in the index; other fields' filters are untouched; nothing that existed stops existing |
| Gists.DescriptionOf | src/routes/object_routes.rs:42 | the description written back is the gist's own, or "GistDB Database" when it has none |
| Gists.ReadCollection | src/routes/object_routes.rs:36-37 | a file without string content reads as the empty map; content that is an object reads as its members; anything else fails to decode |
| Gists.Decoded | src/routes/object_routes.rs:32-37 | a collection file that is absent fails with "Collection not found"; a present one is read as above |
| Gists.PatchFiles | src/routes/collection_routes.rs:138-141 | the PATCH of a gist's files: named files take their new content or disappear for `null`; unnamed files keep their content; file order is kept |
| Gists.ApplyPatch | src/routes/object_routes.rs:42-53 | a PATCH changes only the addressed gist: its description is set, its public flag and unnamed files are kept; a PATCH to an id with no gist changes nothing |
| Gists.WriteCollection | src/routes/object_routes.rs:42-53 | the write-back touches only the collection file, which then decodes to exactly the map written; the description is kept, or becomes "GistDB Database" when absent; other gists and files are untouched |
| Objects.CreateObject | src/routes/object_routes.rs:10-64 | an absent collection file or content that is not an object fails with no write; missing content reads as `{}`; a write without a reply answers 500; a 201 with the id and data is answered exactly when the read decodes and the write gets a reply; when GitHub applies the write the new map holds `id ↦ data` with every other id unchanged, and when it refuses it the 201 is answered with nothing changed; the store changes only on an applied 201 |
| Objects.UpdateObject | src/routes/object_routes.rs:66-123 | an unknown id answers 404 and writes nothing; a write without a reply answers 500; a 200 `updated` is answered exactly when the id existed and the write got a reply; an applied write replaces the old value wholesale and keeps other ids, a refused one changes nothing although 200 is answered |
| Objects.DeleteObject | src/routes/object_routes.rs:125-180 | an absent file or an absent id answers 404; unparseable content fails; a write without a reply propagates; a 200 `deleted` is answered exactly when the id existed and the write got a reply; an applied write removes exactly that id and keeps every other, a refused one changes nothing |
| Collections.CreateCollection | src/routes/collection_routes.rs:8-59 | an existing file answers 409 and writes nothing; otherwise a write without a reply answers 500, and a 201 is answered; when GitHub applies the write, `<name>.json` is written as `{}` with the description and other files kept; a refused write or an absent gist changes nothing |
| Collections.Dump | src/routes/collection_routes.rs:96-103 | the whole-database dump has one member per file, keyed by the full file name, in file order |
| Collections.GetCollection | src/routes/collection_routes.rs:61-106 | by name: an absent file answers 404, unparseable content fails, missing content answers `{}`, and any parsed content is answered as is; without a name: every file appears under its file name, unparseable ones as `null`, an absent gist as `{}`; nothing is written |
| Collections.DeleteCollection | src/routes/collection_routes.rs:108-157 | a gist with no `files` answers 500; an absent file answers 404; otherwise a write without a reply fails, any reply answers 200 `deleted_collection`, and only when GitHub applies the write is that file removed, with the description and other files kept |
| Databases.NewGist | src/routes/database_routes.rs:19-28 | the created gist has the database name as description, is private, and holds exactly `<name>.json` with `{}` |
| Databases.CreateDatabase | src/routes/database_routes.rs:7-46 | a POST without a reply answers 500 and creates nothing; any reply answers 201 with `collection_name`; when GitHub creates the gist, `gist_id` is its id and exactly that gist is added with all others kept, so a fresh id grows the store by one; when GitHub refuses, `gist_id` is null and nothing is created |
| Databases.DeleteDatabaseAsWritten | src/routes/database_routes.rs:48-73 | a DELETE without a reply fails; a performed DELETE of an existing gist (empty 204 body) removes it and then fails decoding; a refused DELETE (JSON error body) answers 200 `deleted_gist` with nothing removed |
| Databases.DeleteDatabaseAsWrittenAnswersInverted | src/routes/database_routes.rs:59-65 | for an existing gist the answer is inverted: when GitHub deletes it the handler fails, and when GitHub refuses the handler answers 200 while the gist remains |
| Databases.DeleteDatabase | src/routes/database_routes.rs:48-73 | corrected handler: it answers 200 `deleted_gist` exactly when GitHub deleted an existing gist, and then exactly that gist is gone; otherwise it fails and nothing changes |
| Databases.DeleteDatabaseAnswerMatchesStore | src/routes/database_routes.rs:59-72 | corrected handler: a failure means nothing was deleted, a 200 means the gist existed and is gone, and every other gist is unchanged |
| SearchCache.CachedSearch | src/utils/cache.rs:6-18 | the entry looked up and stored is the one for the key's parsed URL; a hit answers the stored value and leaves the cache alone; a miss answers the computation's result and stores it only if it succeeded; existing entries never change or expire |
| SearchCache.HitIgnoresComputation | src/utils/cache.rs:11-13 | on a hit the computation, failing or not, has no influence on the answer or the cache |
| SearchCache.SecondCallHits | src/utils/cache.rs:11-16 | after a successful call, the next call with any key that parses to the same URL answers the identical value and leaves the cache as it was |
| SearchCache.OnlyOwnKeyChanges | src/utils/cache.rs:16 | a call changes no entry but the one for its key's parsed URL |
| Url.Cut | src/utils/cache.rs:11-16 | splitting a key at its first `#` (or `?`): the parts put back around the character give the key, and the first part holds no such character; when nothing is split off the character does not occur |
| Url.Split | src/utils/cache.rs:11-16 | a path splits into at least one segment, none holding `/`, which joined with `/` give the path back |
| Url.SplitJoin | src/utils/cache.rs:11-16 | segments without `/` joined and split again come back unchanged |
| Url.FragmentIgnored | src/utils/cache.rs:11-16 | for printable keys, a `#` and anything after it never change the URL the cache matches on |
| Url.ParseSegments | src/utils/cache.rs:11-16 | a key under the origin whose path segments need no percent-encoding parses to the origin followed by those segments with `.` and `..` resolved |
| Url.CleanKeyFixed | src/utils/cache.rs:11-16 | a key under the origin whose segments are clean (printable, no URL-special character, not a dot segment) is its own parsed URL |
| SearchRoute.CacheKey | src/routes/search_routes.rs:27-30 | the key is the prefix, the gist id, `/` and the query, and nothing else: no collection, no field |
| SearchRoute.CacheKeyDecodes | src/routes/search_routes.rs:27-30 | for gist ids and queries made only of printable ASCII without URL-special characters and not `.` or `..`, two requests share a cache entry (their keys parse to the same URL) exactly when gist id and query agree, whatever their collections and fields |
| SearchRoute.GistFile | src/routes/search_routes.rs:35 | reading one file succeeds exactly when the read succeeds and the file exists with content, and then returns that content |
| SearchRoute.RunSearch | src/routes/search_routes.rs:34-40 | the computation succeeds exactly when the collection file holds parseable text, and its value is the id array that `search_json` gives on it; unparseable text fails |
| SearchRoute.CleanCacheKeyFixed | src/routes/search_routes.rs:27-30 | with a clean gist id and query the key string is already the URL the cache matches on |
| SearchRoute.DotSegmentsShareKey | src/routes/search_routes.rs:27-30 | for every two clean gist ids, the query `../q` makes both keys name the same entry, `https://gistdb.com/search/q` |
| SearchRoute.FragmentSharesKey | src/routes/search_routes.rs:27-30 | for printable gist id and query, appending `#` and any printable text to the query names the same cache entry as the query alone |
| SearchRoute.SameUrlServedFirstAnswer | src/routes/search_routes.rs:27-44 | after a successful search, any later search whose key parses to the same URL, for any gist, collection, field and store, answers exactly the first answer and leaves the cache as it was |
| SearchRoute.CrossGistStaleAnswer | src/routes/search_routes.rs:27-44 | searching gist `g1` and then gist `g2` for `../q` answers `g2` with `g1`'s result `["1"]`, while a fresh search of `g2` gives `["2"]` |
| SearchRoute.FragmentStaleAnswer | src/routes/search_routes.rs:27-44 | searching for `x` and then for `x#z` answers the second with the first's `["1"]`, while a fresh search for `x#z` gives `[]` |
| SearchRoute.SearchObjects | src/routes/search_routes.rs:22-44 | hit or miss is decided on the parsed URL of the key; on a hit the cached value is answered whatever the store holds; on a miss the fresh result is answered with 200 and cached; a failure caches nothing |
| SearchRoute.SecondRequestServedFirstAnswer | src/routes/search_routes.rs:27-34 | two requests that differ only in collection and field share a key: after the first answers 200, the second gets the same answer and cache, for any later store |
| SearchRoute.CrossCollectionStaleAnswer | src/routes/search_routes.rs:27-40 | searching collection `b` after collection `a` answers `a`'s ids `["1"]` where a fresh search of `b` gives `["2"]` |
| ScopedKeys.HexInjective | src/routes/search_routes.rs:27-30 | corrected key: `k` hexadecimal digits tell apart every number below 16^k, so six tell apart every character |
| ScopedKeys.EscapeInjective | src/routes/search_routes.rs:27-30 | corrected key: escaping a component (letters, digits and `-` kept, every other character as `_` and six hex digits) loses nothing, and yields only URL-safe characters |
| ScopedKeys.FieldTagInjective | src/routes/search_routes.rs:27-30 | corrected key: the field component tells apart no field, the empty field name and every other name |
| ScopedKeys.SegmentSplit | src/routes/search_routes.rs:27-30 | corrected key: a component without `/`, the separator and the rest split back uniquely |
| ScopedKeys.ScopedPath | src/routes/search_routes.rs:27-30 | corrected key: the path holds only ASCII letters, digits, `-`, `_` and `/`, which a URL parser leaves unchanged |
| ScopedKeys.ScopedPathInjective | src/routes/search_routes.rs:27-30 | corrected key: two requests share a path only when gist, collection, query and field are all equal |
| SearchRoute.ScopedKey | src/routes/search_routes.rs:27-30 | corrected key: the prefix followed by a URL-safe path, which is its own parsed URL, so the cache stores it unchanged |
| SearchRoute.ScopedKeyInjective | src/routes/search_routes.rs:27-30 | corrected key: two requests share a cache key only when gist, collection, query and field are all equal |
| SearchRoute.SearchObjectsScoped | src/routes/search_routes.rs:22-44 | the handler with the corrected key: hit, miss and failure as in the handler as written |
| SearchRoute.ScopedSearchIsFresh | src/routes/search_routes.rs:34-43 | with the corrected key, and while the store is unchanged, every answer equals a fresh search of the requested collection and field, and the cache stays coherent with the store |
| Scenarios.CreateThenGetCollection | src/routes/collection_routes.rs:85-91 | creating a collection and then getting it by name answers `{}` |
| Scenarios.CreateDatabaseThenGetCollection | src/routes/database_routes.rs:19-44 | after GitHub creates the database, the answer names the new gist, and getting its collection from that gist answers `{}` |
| Scenarios.CreateThenGetObject | src/routes/object_routes.rs:39-58 | a created object is in the collection a later get answers, under its id with its data |
| Scenarios.UpdateTwiceKeepsLast | src/routes/object_routes.rs:95-99 | updating with `x` and then `y` stores exactly `y`, and every other object is as before the first update |
| Scenarios.DeleteTwiceIsNotFound | src/routes/object_routes.rs:154-158 | deleting an existing id removes it, and deleting it again answers 404 and writes nothing |
| Scenarios.CreateThenSearchFinds | src/routes/search_routes.rs:34-39 | an object created with a string field containing the query is found by a field search through an empty cache |
| Scenarios.DeleteThenSearchMisses | src/routes/search_routes.rs:34-39 | after an existing id is deleted, a search through an empty cache never lists it |
| Scenarios.CrossCollectionScopedFresh | src/routes/search_routes.rs:27-30 | with the corrected key the counterexample's second search answers collection `b`'s own result |

## Left out

- Authorization headers, request-body parsing, the 400 and 401 answers, and the `message` and `error` strings of the `api_response` envelope are left out. Handlers take their inputs as parameters and answer the envelope's `status` code with its `data`.
- JSON text is not modelled. serde_json's parsing and printing are abstracted to `Missing | Parsed | Unparseable`, and a write stores the value it serialised.
- Numbers are integers. Nothing in the core computes with them or matches them.
- `Uuid::new_v4` and the id GitHub assigns to a new gist are parameters.
- The HTTP transport (`github_request`) is a parameter, `Net`: whether the read got a reply whose body decodes as JSON, whether the write got a reply, and whether GitHub applied the write. Which GitHub error bodies arise, and why, is not modelled.
- SearchRoute.GistFile: `github_service::get_gist_file`, called by the search handler, is not defined in `src/services/github_service.rs`, which defines only `github_request`. The model assumes it fails on a transport failure, on an absent gist or file, and on a file without content, and returns the content otherwise.
- `SearchRequest`, the search handler's request body, is imported from `src/models/request_models.rs` but not defined there. The model reads its fields from their uses in `src/routes/search_routes.rs`: `gist_id`, `collection_name`, `query` and an optional `field`, which become the parameters of `SearchRoute.SearchObjects`.
- SparseIndex.FilterContains: the Bloom filter's bit array, sizing and hashers are abstracted to one hash into 100000 positions per filter. The hashers a new filter draws are a parameter of `SparseIndex.CreateIndex` (`freshHash`). False positives are possible but not quantified.
- Object order: the model iterates objects in increasing key order, which holds when serde_json's `preserve_order` feature is off. Cargo.toml is not part of this model; with that feature on, `Map` keeps insertion order and `Map::remove` may reorder entries, so search results and the sample in `SparseIndex.Sample` would follow that order instead.
- The corrected search key (`ScopedKeys`) is one escaping that makes the key injective and URL-safe; `SearchRoute.ScopedKey` proves that the URL parsing of `url.dfy` leaves it unchanged.
- URL parsing (`Url`) covers keys that start with `https://gistdb.com` followed by `/` or `\`, which is every key the handler builds. Any other string stands for itself. Host parsing, IDNA, ports, credentials and other schemes are left out. Path segments are percent-encoded with the path set without `^`, which the URL Standard added to that set in a later revision; the clean-segment lemmas hold under either revision, because a clean segment holds no `^`, `'`, `|`, `[` or `]`.
- Concurrency is not modelled: lost updates between two read-modify-write handlers, and duplicate computation on simultaneous cache misses. Each handler is one atomic transition.
- The Workers cache API's own failures and the response encoding of cached values are left out. A get and a put always succeed, and the stored value is the JSON value itself.
- SearchCache.CachedSearch: there is no expiry. The TTL constant in the source is commented out, and nothing in the code evicts an entry.
- SearchCache.CachedSearch: the cache is one global map that never drops an entry. The Workers Cache API is local to each data centre and may evict an entry at any time, and the stored `Response::from_json` carries no Cache-Control header. So the stale answers in `SearchRoute.SecondRequestServedFirstAnswer`, `SearchRoute.SameUrlServedFirstAnswer`, `SearchRoute.CrossCollectionStaleAnswer`, `SearchRoute.CrossGistStaleAnswer` and `SearchRoute.FragmentStaleAnswer` arise only while the entry is still cached in the data centre that serves the later request. `SearchRoute.ScopedSearchIsFresh` does not depend on this, because a dropped entry only causes a fresh search.
- Search idempotence has no lemma of its own. The model's functions are deterministic, so the same snapshot and query always give the same answer.
- The routing table, the health endpoint and the static documentation are outside the core.

## Findings

| source | as written | input that shows it | evidently intended | confidence | as-written member | corrected member |
|---|---|---|---|---|---|---|
| src/routes/search_routes.rs:27-30 | the cache key is built from the gist id and the query only | gist `g` with `a.json` = `{"1":{"title":"x"}}` and `b.json` = `{"2":{"title":"x"}}`; search `a` for `x`, then search `b` for `x`: the second answer is `["1"]` | a key that also names the collection and the field, so each answer is the search of the requested collection | high, not executed | SearchRoute.CrossCollectionStaleAnswer | SearchRoute.ScopedSearchIsFresh |
| src/routes/search_routes.rs:27-30 | the query is placed in the key's URL path unescaped, and the cache matches keys by their parsed URL, so `..` segments and a `#` in the query change which entry the key names | gists `g1` and `g2`, each with `a.json`: `{"1":{"title":"../q"}}` in `g1` and `{"2":{"title":"../q"}}` in `g2`; search `g1`'s `a` for `../q`, then `g2`'s `a` for `../q`: both keys parse to `https://gistdb.com/search/q` and the second answer is `["1"]` | each gist's own answer, from a key whose every part is escaped so that parsing leaves it unchanged | medium, not executed | SearchRoute.CrossGistStaleAnswer | SearchRoute.ScopedSearchIsFresh |
| src/routes/database_routes.rs:59-65 | the DELETE reply body is decoded as JSON, a decoding failure is propagated with `?`, and any decoded body is taken as success | delete an existing database: GitHub answers 204 with an empty body and the handler fails after the gist is gone; delete one the token may not delete: GitHub answers a JSON error body and the handler answers 200 `deleted_gist` with the gist still there | 200 `deleted_gist` exactly when the gist was deleted | medium, not executed | Databases.DeleteDatabaseAsWrittenAnswersInverted | Databases.DeleteDatabaseAnswerMatchesStore |

=== FILE: assoc.dfy ===
/**
  String-keyed association lists kept in strictly increasing key order.

  serde_json's `Map` is, without the `preserve_order` feature, a `BTreeMap<String, _>`:
  it iterates in ascending key order and holds each key once. A sorted sequence of
  pairs is that map with its iteration order made explicit, so "the n-th entry" and
  "the keys in iteration order" have a meaning in the model.
 */
module Assoc {
  import opened Base

  /** Strict lexicographic order on strings by character code. On Unicode scalar
      values this is the byte order of their UTF-8 encodings, i.e. Rust's `String` order. */
  predicate Below(a: string, b: string)
  {
    if |a| == 0 then |b| > 0
    else if |b| == 0 then false
    else a[0] < b[0] || (a[0] == b[0] && Below(a[1..], b[1..]))
  }

  lemma BelowIrreflexive(a: string)
    ensures !Below(a, a)
  {
    if |a| > 0 {
      BelowIrreflexive(a[1..]);
    }
  }

  lemma {:induction false} BelowTransitive(a: string, b: string, c: string)
    requires Below(a, b) && Below(b, c)
    ensures Below(a, c)
  {
    if |a| > 0 && a[0] == b[0] && b[0] == c[0] {
      BelowTransitive(a[1..], b[1..], c[1..]);
    }
  }

  lemma {:induction false} BelowTotal(a: string, b: string)
    ensures a == b || Below(a, b) || Below(b, a)
  {
    if |a| > 0 && |b| > 0 && a[0] == b[0] {
      BelowTotal(a[1..], b[1..]);
      if a[1..] == b[1..] {
        assert a == [a[0]] + a[1..] && b == [b[0]] + b[1..];
      }
    }
  }

  lemma {:induction false} BelowAsymmetric(a: string, b: string)
    requires Below(a, b)
    ensures !Below(b, a)
  {
    if Below(b, a) {
      BelowTransitive(a, b, a);
      BelowIrreflexive(a);
    }
  }

  type Entries<V> = seq<(string, V)>

  /** Keys strictly increase along the sequence: the invariant of a `BTreeMap`'s iteration. */
  predicate Sorted<V>(ms: Entries<V>)
  {
    forall i, j :: 0 <= i < j < |ms| ==> Below(ms[i].0, ms[j].0)
  }

  /** The strings strictly increase: ordered and free of duplicates. */
  predicate Increasing(ks: seq<string>)
  {
    forall i, j :: 0 <= i < j < |ks| ==> Below(ks[i], ks[j])
  }

  function Keys<V>(ms: Entries<V>): set<string>
  {
    set i | 0 <= i < |ms| :: ms[i].0
  }

  /** The value stored under `k` (the first one, if a non-map sequence repeats `k`). */
  function Lookup<V>(ms: Entries<V>, k: string): (r: Option<V>)
    ensures r.Some? <==> k in Keys(ms)
    ensures r.Some? ==> (k, r.value) in ms
  {
    if |ms| == 0 then None
    else if ms[0].0 == k then Some(ms[0].1)
    else
      var r := Lookup(ms[1..], k);
      assert forall i :: 0 <= i < |ms| - 1 ==> ms[1..][i] == ms[i + 1];
      assert k in Keys(ms[1..]) <==> k in Keys(ms);
      r
  }

  /** In a sorted sequence every entry is what `Lookup` finds under its key. */
  lemma {:induction false} LookupSorted<V>(ms: Entries<V>, i: int)
    requires Sorted(ms) && 0 <= i < |ms|
    ensures Lookup(ms, ms[i].0) == Some(ms[i].1)
  {
    if i > 0 {
      BelowIrreflexive(ms[0].0);
      assert Below(ms[0].0, ms[i].0);
      assert ms[0].0 != ms[i].0;
      assert ms[1..][i - 1] == ms[i];
      LookupSorted(ms[1..], i - 1);
    }
  }

  /** Membership of a pair in a sorted sequence is exactly what `Lookup` reports. */
  lemma LookupIffMember<V>(ms: Entries<V>, k: string, v: V)
    requires Sorted(ms)
    ensures Lookup(ms, k) == Some(v) <==> (k, v) in ms
  {
    if (k, v) in ms {
      var i :| 0 <= i < |ms| && ms[i] == (k, v);
      LookupSorted(ms, i);
    }
  }

  lemma KeysCons<V>(x: (string, V), ms: Entries<V>)
    ensures Keys([x] + ms) == {x.0} + Keys(ms)
  {
    var r := [x] + ms;
    forall k | k in Keys(r)
      ensures k in {x.0} + Keys(ms)
    {
      var i :| 0 <= i < |r| && r[i].0 == k;
      if i > 0 {
        assert r[i] == ms[i - 1];
      }
    }
    forall k | k in Keys(ms)
      ensures k in Keys(r)
    {
      var i :| 0 <= i < |ms| && ms[i].0 == k;
      assert r[i + 1] == ms[i];
    }
    assert r[0] == x;
  }

  /** A sorted sequence stays sorted when an entry below all its keys is put in front. */
  lemma SortedCons<V>(x: (string, V), ms: Entries<V>)
    requires Sorted(ms)
    requires forall k :: k in Keys(ms) ==> Below(x.0, k)
    ensures Sorted([x] + ms)
  {
    var r := [x] + ms;
    forall i, j | 0 <= i < j < |r|
      ensures Below(r[i].0, r[j].0)
    {
      assert r[j] == ms[j - 1];
      if i == 0 {
        assert ms[j - 1].0 in Keys(ms);
      } else {
        assert r[i] == ms[i - 1];
      }
    }
  }

  /** The first key of a sorted sequence is below every later key. */
  lemma SortedHead<V>(ms: Entries<V>)
    requires Sorted(ms) && |ms| > 0
    ensures Sorted(ms[1..])
    ensures forall k :: k in Keys(ms[1..]) ==> Below(ms[0].0, k)
  {
    forall k | k in Keys(ms[1..])
      ensures Below(ms[0].0, k)
    {
      var i :| 0 <= i < |ms[1..]| && ms[1..][i].0 == k;
      assert ms[i + 1].0 == k;
    }
  }

  /** `BTreeMap::insert`: adds `k ↦ v`, or replaces the value of an existing `k` in place. */
  function Insert<V>(ms: Entries<V>, k: string, v: V): (r: Entries<V>)
    ensures Lookup(r, k) == Some(v)
    ensures forall k' :: k' != k ==> Lookup(r, k') == Lookup(ms, k')
    ensures Keys(r) == Keys(ms) + {k}
    ensures Sorted(ms) ==> Sorted(r)
    ensures forall p :: p in r ==> p == (k, v) || p in ms
  {
    if |ms| == 0 then [(k, v)]
    else
      KeysCons(ms[0], ms[1..]);
      assert ms == [ms[0]] + ms[1..];
      if ms[0].0 == k then
        KeysCons((k, v), ms[1..]);
        assert Sorted(ms) ==> Sorted([(k, v)] + ms[1..]) by {
          if Sorted(ms) {
            SortedHead(ms);
            SortedCons((k, v), ms[1..]);
          }
        }
        [(k, v)] + ms[1..]
      else if Below(k, ms[0].0) then
        KeysCons((k, v), ms);
        assert Sorted(ms) ==> Sorted([(k, v)] + ms) by {
          if Sorted(ms) {
            SortedHead(ms);
            forall k' | k' in Keys(ms)
              ensures Below(k, k')
            {
              if k' != ms[0].0 {
                BelowTransitive(k, ms[0].0, k');
              }
            }
            SortedCons((k, v), ms);
          }
        }
        [(k, v)] + ms
      else
        var tail := Insert(ms[1..], k, v);
        KeysCons(ms[0], tail);
        assert Sorted(ms) ==> Sorted([ms[0]] + tail) by {
          if Sorted(ms) {
            SortedHead(ms);
            BelowTotal(k, ms[0].0);
            SortedCons(ms[0], tail);
          }
        }
        [ms[0]] + tail
  }

  /** `BTreeMap::remove`: drops the entry for `k`, if any. */
  function Remove<V>(ms: Entries<V>, k: string): (r: Entries<V>)
    ensures Lookup(r, k) == None
    ensures forall k' :: k' != k ==> Lookup(r, k') == Lookup(ms, k')
    ensures Keys(r) == Keys(ms) - {k}
    ensures Sorted(ms) ==> Sorted(r)
    ensures forall p :: p in r ==> p in ms
  {
    if |ms| == 0 then []
    else
      var tail := Remove(ms[1..], k);
      KeysCons(ms[0], ms[1..]);
      assert ms == [ms[0]] + ms[1..];
      if ms[0].0 == k then
        assert Sorted(ms) ==> Sorted(tail) by {
          if Sorted(ms) {
            SortedHead(ms);
          }
        }
        tail
      else
        KeysCons(ms[0], tail);
        assert Sorted(ms) ==> Sorted([ms[0]] + tail) by {
          if Sorted(ms) {
            SortedHead(ms);
            SortedCons(ms[0], tail);
          }
        }
        [ms[0]] + tail
  }
}

=== FILE: base.dfy ===
/** Small failure-carrying datatypes shared by every module of the model. */
module Base {

  /** A value that may be absent (Rust's `Option`). */
  datatype Option<+T> = None | Some(value: T)

  /** Why a request failed instead of producing a status envelope. */
  datatype Fault =
    | Upstream            // the HTTP transport failed or its reply did not decode
    | CollectionNotFound  // the `ok_or("Collection not found")?` of the write handlers
    | Decode              // stored file content is not the JSON the handler needs

  /** A computation that either succeeds or propagates a `Fault` (Rust's `Result`). */
  datatype Result<+T> = Ok(value: T) | Err(fault: Fault)
}

=== FILE: cache.dfy ===
/**
  The get-or-compute search cache of `src/utils/cache.rs`, over the Workers cache seen
  as a map from the parsed request URL (`Url.UrlKey` of the key string) to the JSON
  value stored under it. Entries never expire: the TTL constant is commented out and
  nothing deletes.
 */
module SearchCache {
  import opened Base
  import opened Json
  import opened Url

  type Cache = map<string, Json>

  /** `cached_search`: a hit answers the stored value and leaves the cache alone; a
      miss answers the computation's result, and a successful one stores it under the
      key's URL. `compute` stands for the awaited future; it is consulted only on a
      miss. */
  function CachedSearch(cache: Cache, key: string, compute: Result<Json>): (r: (Result<Json>, Cache))
    ensures UrlKey(key) in cache ==> r == (Ok(cache[UrlKey(key)]), cache)
    ensures UrlKey(key) !in cache ==> r.0 == compute
    ensures UrlKey(key) !in cache && compute.Err? ==> r.1 == cache
    ensures r.0.Ok? ==> UrlKey(key) in r.1 && r.1[UrlKey(key)] == r.0.value
    ensures r.1.Keys == cache.Keys + (if r.0.Ok? then {UrlKey(key)} else {})
    ensures forall k :: k in cache ==> r.1[k] == cache[k]
  {
    var url := UrlKey(key);
    if url in cache then (Ok(cache[url]), cache)
    else if compute.Ok? then (compute, cache[url := compute.value])
    else (compute, cache)
  }

  /** On a hit the computation does not matter: two different computations, failing
      or not, give the same answer and the same cache. */
  lemma HitIgnoresComputation(cache: Cache, key: string, c1: Result<Json>, c2: Result<Json>)
    requires UrlKey(key) in cache
    ensures CachedSearch(cache, key, c1) == CachedSearch(cache, key, c2)
  {
  }

  /** After a call that succeeded, the next call with a key naming the same URL is a
      hit answering the identical value, whatever its own computation would give. */
  lemma SecondCallHits(cache: Cache, key: string, key': string, first: Result<Json>, second: Result<Json>)
    requires CachedSearch(cache, key, first).0.Ok?
    requires UrlKey(key') == UrlKey(key)
    ensures var (r1, c1) := CachedSearch(cache, key, first);
      CachedSearch(c1, key', second) == (r1, c1)
  {
  }

  /** A call changes at most the entry of its own key's URL. */
  lemma OnlyOwnKeyChanges(cache: Cache, key: string, compute: Result<Json>, other: string)
    requires other != UrlKey(key)
    ensures var c1 := CachedSearch(cache, key, compute).1;
      (other in c1 <==> other in cache) && (other in cache ==> c1[other] == cache[other])
  {
  }
}

=== FILE: collections.dfy ===
/**
  The collection handlers of `src/routes/collection_routes.rs`: a collection is the
  file `<name>.json` of a gist, created holding `{}`, read back decoded, and removed by
  a PATCH that sets the file to `null`.
 */
module Collections {
  import opened Base
  import opened Assoc
  import opened Json
  import opened Gists

  /** `create_collection`: 409 when the file is already there, whatever its content;
      otherwise the file is written with content `{}`. A PATCH that GitHub refuses
      still answers 201, and then no file is created. */
  function CreateCollection(store: Store, gistId: string, name: string, net: Net): (r: (Outcome, Store))
    ensures !net.readOk ==> r == (Failed(Upstream), store)
    ensures r.0 == Status(409, None) <==> net.readOk && FileAt(store, gistId, FileName(name)).Some?
    ensures r.0 == Status(500, None) <==> net.readOk && !net.writeOk && FileAt(store, gistId, FileName(name)).None?
    ensures r.0 == Status(201, Some(JObj([("collection_name", JStr(name))]))) <==>
      net.readOk && net.writeOk && FileAt(store, gistId, FileName(name)).None?
    ensures r.0.Status? && r.0.code == 201 && net.applied && gistId in store ==>
      && Rewrote(store, r.1, gistId, FileName(name))
      && FileAt(r.1, gistId, FileName(name)) == Some(Parsed(EmptyObject))
    ensures r.0.Status? && r.0.code == 201 && !net.applied ==> r.1 == store
    ensures r.1 != store ==> r.0.Status? && r.0.code == 201 && net.applied && gistId in store
    ensures ValidStore(store) ==> ValidStore(r.1)
  {
    if !net.readOk then (Failed(Upstream), store)
    else if FileAt(store, gistId, FileName(name)).Some? then (Status(409, None), store)
    else if !net.writeOk then (Status(500, None), store)
    else (Status(201, Some(JObj([("collection_name", JStr(name))]))), Commit(store, WriteCollection(store, gistId, name, []), net))
  }

  /** How the whole-database dump shows one file: missing content as `{}`, content
      that does not parse as `null`. */
  function DumpValue(c: Content): (v: Json)
    ensures c.Missing? ==> v == EmptyObject
    ensures c.Parsed? ==> v == c.value
    ensures c.Unparseable? ==> v == JNull
  {
    match c
    case Missing => EmptyObject
    case Parsed(v) => v
    case Unparseable => JNull
  }

  /** The loop of `get_collection` without a name: one member per file, keyed by the
      full file name, `.json` included. */
  function Dump(files: Entries<Content>): (ms: Entries<Json>)
    ensures |ms| == |files|
    ensures forall i :: 0 <= i < |files| ==> ms[i] == (files[i].0, DumpValue(files[i].1))
    ensures Keys(ms) == Keys(files)
    ensures Sorted(files) ==> Sorted(ms)
  {
    var ms := seq(|files|, i requires 0 <= i < |files| => (files[i].0, DumpValue(files[i].1)));
    assert Keys(ms) == Keys(files) by {
      assert forall i :: 0 <= i < |files| ==> ms[i].0 == files[i].0;
    }
    ms
  }

  /** `get_collection`. With a name: the decoded file, `{}` for missing content, 404
      when the file (or the gist) is absent, a propagated failure when the content does
      not parse. Without a name: every file of the gist, unreadable ones as `null`, and
      an empty object when the reply has no `files` object. Nothing is written. */
  function GetCollection(store: Store, gistId: string, name: Option<string>, net: Net): (r: Outcome)
    ensures !net.readOk ==> r == Failed(Upstream)
    ensures net.readOk && name.Some? ==>
      var f := FileAt(store, gistId, FileName(name.value));
      && (f.None? <==> r == Status(404, None))
      && (f == Some(Unparseable) <==> r == Failed(Decode))
      && (f == Some(Missing) ==> r == Status(200, Some(EmptyObject)))
      && (forall v :: f == Some(Parsed(v)) ==> r == Status(200, Some(v)))
    ensures net.readOk && name.None? ==>
      && r.Status? && r.code == 200 && r.data.Some? && r.data.value.JObj?
      && (gistId !in store ==> r.data.value == EmptyObject)
      && (forall n :: Lookup(r.data.value.members, n).Some? <==> FileAt(store, gistId, n).Some?)
      && (forall n :: FileAt(store, gistId, n).Some? ==>
            Lookup(r.data.value.members, n) == Some(DumpValue(FileAt(store, gistId, n).value)))
    ensures ValidStore(store) && r.Status? && r.data.Some? ==> Wf(r.data.value)
  {
    if !net.readOk then Failed(Upstream)
    else if name.Some? then
      match FileAt(store, gistId, FileName(name.value))
      case None => Status(404, None)
      case Some(Missing) => Status(200, Some(EmptyObject))
      case Some(Parsed(v)) =>
        assert ValidStore(store) ==> Wf(v) by {
          if ValidStore(store) {
            ParsedFileWf(store, gistId, FileName(name.value));
          }
        }
        Status(200, Some(v))
      case Some(Unparseable) => Failed(Decode)
    else
      var files := if gistId in store then store[gistId].files else [];
      var ms := Dump(files);
      assert forall n :: FileAt(store, gistId, n).Some? ==> Lookup(ms, n) == Some(DumpValue(FileAt(store, gistId, n).value)) by {
        forall n | FileAt(store, gistId, n).Some?
          ensures Lookup(ms, n) == Some(DumpValue(FileAt(store, gistId, n).value))
        {
          DumpLookup(files, n);
        }
      }
      assert ValidStore(store) ==> Wf(JObj(ms)) by {
        if ValidStore(store) {
          assert forall i :: 0 <= i < |files| ==> ContentWf(files[i].1);
        }
      }
      Status(200, Some(JObj(ms)))
  }

  lemma {:induction false} DumpLookup(files: Entries<Content>, n: string)
    ensures Lookup(files, n).Some? ==> Lookup(Dump(files), n) == Some(DumpValue(Lookup(files, n).value))
  {
    if |files| > 0 && files[0].0 != n {
      DumpLookup(files[1..], n);
      assert Dump(files)[1..] == Dump(files[1..]);
    }
  }

  lemma ParsedFileWf(store: Store, gistId: string, filename: string)
    requires ValidStore(store)
    requires FileAt(store, gistId, filename).Some? && FileAt(store, gistId, filename).value.Parsed?
    ensures Wf(FileAt(store, gistId, filename).value.value)
  {
    var c := FileAt(store, gistId, filename).value;
    var files := store[gistId].files;
    var i :| 0 <= i < |files| && files[i] == (filename, c);
    assert ContentWf(files[i].1);
  }

  /** `delete_collection`: 500 when the reply has no `files` object, 404 when the file
      is absent, otherwise a PATCH that deletes only that file. A PATCH that got no
      reply is propagated; one GitHub refused still answers 200. */
  function DeleteCollection(store: Store, gistId: string, name: string, net: Net): (r: (Outcome, Store))
    ensures !net.readOk ==> r == (Failed(Upstream), store)
    ensures r.0 == Status(500, None) <==> net.readOk && gistId !in store
    ensures r.0 == Status(404, None) <==> net.readOk && gistId in store && FileAt(store, gistId, FileName(name)).None?
    ensures r.0 == Status(200, Some(JObj([("deleted_collection", JStr(name))]))) <==>
      net.readOk && net.writeOk && FileAt(store, gistId, FileName(name)).Some?
    ensures r.0.Status? && r.0.code == 200 && net.applied ==>
      && Rewrote(store, r.1, gistId, FileName(name))
      && FileAt(r.1, gistId, FileName(name)).None?
    ensures r.0.Status? && r.0.code == 200 && !net.applied ==> r.1 == store
    ensures r.1 != store ==> r.0.Status? && r.0.code == 200 && net.applied
    ensures ValidStore(store) ==> ValidStore(r.1)
  {
    if !net.readOk then (Failed(Upstream), store)
    else if gistId !in store then (Status(500, None), store)
    else if FileName(name) !in Keys(store[gistId].files) then (Status(404, None), store)
    else if !net.writeOk then (Failed(Upstream), store)
    else
      var p := OneFile(DescriptionOf(Fetch(store, gistId)), FileName(name), None);
      assert ValidStore(store) ==> ValidStore(ApplyPatch(store, gistId, p)) by {
        if ValidStore(store) {
          PatchKeepsValid(store, gistId, p);
        }
      }
      (Status(200, Some(JObj([("deleted_collection", JStr(name))]))), Commit(store, ApplyPatch(store, gistId, p), net))
  }
}

=== FILE: databases.dfy ===
/**
  The database handlers of `src/routes/database_routes.rs`: a database is one gist,
  created private with a single empty collection named after the database, and deleted
  as a whole.
 */
module Databases {
  import opened Base
  import opened Assoc
  import opened Json
  import opened Gists

  /** The gist `create_database` POSTs: description `name`, not public, one file
      `<name>.json` holding `{}`. */
  function NewGist(name: string): (g: Gist)
    ensures g.description == Some(name) && !g.public
    ensures Keys(g.files) == {FileName(name)}
    ensures Lookup(g.files, FileName(name)) == Some(Parsed(EmptyObject))
    ensures ValidGist(g)
  {
    var g := Gist(Some(name), false, [(FileName(name), Parsed(EmptyObject))]);
    KeysCons(g.files[0], []);
    assert g.files == [g.files[0]] + [];
    g
  }

  /** `create_database`. The id GitHub assigns to the new gist is a parameter. A POST
      that GitHub refuses (for instance for a request without a token) gets a JSON
      error body without an `id`: the handler still answers 201, with `gist_id` null,
      and nothing is created. */
  function CreateDatabase(store: Store, name: string, newId: string, net: Net): (r: (Outcome, Store))
    ensures !net.writeOk ==> r == (Status(500, None), store)
    ensures net.writeOk ==>
      r.0 == Status(201, Some(JObj([("collection_name", JStr(name)),
                                    ("gist_id", if net.applied then JStr(newId) else JNull)])))
    ensures net.writeOk && net.applied ==>
      && r.1.Keys == store.Keys + {newId}
      && r.1[newId] == NewGist(name)
      && forall id :: id in store && id != newId ==> r.1[id] == store[id]
    ensures net.writeOk && net.applied && newId !in store ==> |r.1| == |store| + 1
    ensures !(net.writeOk && net.applied) ==> r.1 == store
    ensures ValidStore(store) ==> ValidStore(r.1)
  {
    if !net.writeOk then (Status(500, None), store)
    else
      (Status(201, Some(JObj([("collection_name", JStr(name)),
                              ("gist_id", if net.applied then JStr(newId) else JNull)]))),
       Commit(store, store[newId := NewGist(name)], net))
  }

  /** The `data` of `delete_database`'s 200: `{"deleted_gist": …}`. */
  function DeletedBody(gistId: string): Json
  {
    JObj([("deleted_gist", JStr(gistId))])
  }

  /** `delete_database` as written. `github_request` decodes every reply body as JSON
      (src/services/github_service.rs:25). GitHub answers a DELETE it carries out with
      204 and an empty body, which does not decode, so the handler's `?` propagates a
      failure after the gist is gone. A DELETE it refuses (no such gist, or a gist the
      token may not delete) gets a JSON error body, which decodes, so the handler
      answers 200 and nothing was deleted. */
  function DeleteDatabaseAsWritten(store: Store, gistId: string, net: Net): (r: (Outcome, Store))
    ensures !net.writeOk ==> r == (Failed(Upstream), store)
    ensures r.1 == if net.writeOk && net.applied then store - {gistId} else store
    ensures r.0.Failed? <==> !net.writeOk || (net.applied && gistId in store)
    ensures r.0.Status? ==> r.0 == Status(200, Some(DeletedBody(gistId))) && r.1 == store
  {
    if !net.writeOk then (Failed(Upstream), store)
    else if net.applied && gistId in store then (Failed(Upstream), store - {gistId})
    else (Status(200, Some(DeletedBody(gistId))), store)
  }

  /** As written the answer is inverted: deleting an existing database reports a
      failure although the gist has been removed, and a DELETE that GitHub refuses
      answers 200 `deleted_gist` although the gist is still there. */
  lemma DeleteDatabaseAsWrittenAnswersInverted(store: Store, gistId: string)
    requires gistId in store
    ensures var r := DeleteDatabaseAsWritten(store, gistId, Net(true, true, true));
      r.0.Failed? && gistId !in r.1
    ensures var r := DeleteDatabaseAsWritten(store, gistId, Net(true, true, false));
      r.0 == Status(200, Some(DeletedBody(gistId))) && gistId in r.1
  {
    var r := DeleteDatabaseAsWritten(store, gistId, Net(true, true, true));
    assert gistId in store && gistId !in r.1;
  }

  /** `delete_database` answering from what GitHub did: 200 `deleted_gist` when the
      gist was deleted (the empty 204 reply accepted as success), a failure when the
      DELETE got no reply or was refused. */
  function DeleteDatabase(store: Store, gistId: string, net: Net): (r: (Outcome, Store))
    ensures r.0.Status? <==> net.writeOk && net.applied && gistId in store
    ensures r.0.Status? ==> r.0 == Status(200, Some(DeletedBody(gistId))) && r.1 == store - {gistId}
    ensures r.0.Failed? ==> r == (Failed(Upstream), store)
  {
    if net.writeOk && net.applied && gistId in store then (Status(200, Some(DeletedBody(gistId))), store - {gistId})
    else (Failed(Upstream), store)
  }

  /** The corrected handler's answer agrees with the store: a failure means nothing
      was deleted, a 200 means the gist existed and is gone, every other gist kept. */
  lemma DeleteDatabaseAnswerMatchesStore(store: Store, gistId: string, net: Net)
    ensures var r := DeleteDatabase(store, gistId, net);
      && (r.0.Failed? ==> r.1 == store)
      && (r.0.Status? ==> r.0.code == 200 && gistId in store && gistId !in r.1)
      && (forall id :: id in r.1 ==> id in store && r.1[id] == store[id])
  {
  }
}

=== FILE: gists.dfy ===
/**
  The remote storage as the route handlers see it: GitHub Gists, each a description and
  a set of named text files, read with GET and changed with PATCH.

  Each collection is one file `<name>.json` whose text is a JSON object. The text is
  abstracted to what `serde_json::from_str` makes of it (`Content`), and a write stores
  the value that was serialised, so serialisation followed by parsing is the identity.
 */
module Gists {
  import opened Base
  import opened Assoc
  import opened Json

  /** A file's `content` field: absent or not a string (`as_str()` is `None`), text that
      parses as the given JSON value, or text that does not parse. */
  datatype Content = Missing | Parsed(value: Json) | Unparseable

  /** One gist. `files` is the `files` object of GitHub's reply, in its key order. */
  datatype Gist = Gist(description: Option<string>, public: bool, files: Entries<Content>)

  /** All gists reachable with the caller's token, by gist id. A GET for an id that is
      not here gets GitHub's error body, which has no `files` object; a PATCH to it
      changes nothing. `github_request` (src/services/github_service.rs) does not look
      at the HTTP status, so both replies reach the handlers as successes. */
  type Store = map<string, Gist>

  /** What the remote side does with a handler's calls. `readOk`: the GET got a reply
      whose body decodes as JSON. `writeOk`: the write (PATCH, POST or DELETE) got a
      reply, so the transport succeeded. `applied`: GitHub carried the write out; when
      it refuses one (401 without a token, 403 or 404 on a gist the token may read but
      not change, 422) it answers with a JSON error body instead, and
      `github_request` (src/services/github_service.rs:25) hands that body to the
      handler as a success, because it never looks at the HTTP status. */
  datatype Net = Net(readOk: bool, writeOk: bool, applied: bool)

  /** The store after a write the handler has sent: the written store if GitHub
      carried the write out, the old one if it refused it. */
  function Commit(store: Store, written: Store, net: Net): (s: Store)
    ensures net.applied ==> s == written
    ensures !net.applied ==> s == store
  {
    if net.applied then written else store
  }

  /** What a handler produces: an `api_response` envelope with its status code and
      `data`, or an `Err` propagated with `?` out of the handler. */
  datatype Outcome = Status(code: nat, data: Option<Json>) | Failed(fault: Fault)

  /** The body of a PATCH: the description to set and, per named file, its new content
      or `null` (`None`) to delete it. Files not named are left as they are. */
  datatype Patch = Patch(description: string, files: Entries<Option<Content>>)

  /** Description sent back on every write when the gist has none. */
  const DefaultDescription: string := "GistDB Database"

  /** The file backing a collection. */
  function FileName(collection: string): string
  {
    collection + ".json"
  }

  /** The GET reply: the gist, or `None` when its `files` is not an object. */
  function Fetch(store: Store, gistId: string): Option<Gist>
  {
    if gistId in store then Some(store[gistId]) else None
  }

  /** `gist["files"][filename]` / `gist["files"].get(filename)`. */
  function FileAt(store: Store, gistId: string, filename: string): (c: Option<Content>)
    ensures c.Some? <==> gistId in store && filename in Keys(store[gistId].files)
  {
    if gistId in store then Lookup(store[gistId].files, filename) else None
  }

  /** `gist["description"].as_str().unwrap_or("GistDB Database")`. */
  function DescriptionOf(g: Option<Gist>): (d: string)
    ensures g.Some? && g.value.description.Some? ==> d == g.value.description.value
    ensures g.None? || g.value.description.None? ==> d == DefaultDescription
  {
    if g.Some? && g.value.description.Some? then g.value.description.value else DefaultDescription
  }

  /** `serde_json::from_str::<Map<String, Value>>(content.as_str().unwrap_or("{}"))`:
      a missing content reads as the empty map; anything but an object fails. */
  function ReadCollection(c: Content): (r: Result<Entries<Json>>)
    ensures r.Ok? <==> c.Missing? || (c.Parsed? && c.value.JObj?)
    ensures r.Err? ==> r.fault == Decode
    ensures c.Missing? ==> r == Ok([])
    ensures c.Parsed? && c.value.JObj? ==> r == Ok(c.value.members)
  {
    match c
    case Missing => Ok([])
    case Parsed(JObj(ms)) => Ok(ms)
    case _ => Err(Decode)
  }

  /** The object map stored for a collection, as a write handler decodes it: the
      collection file must exist and hold an object (or no content at all). */
  function Decoded(store: Store, gistId: string, collection: string): (r: Result<Entries<Json>>)
    ensures FileAt(store, gistId, FileName(collection)).None? ==> r == Err(CollectionNotFound)
    ensures FileAt(store, gistId, FileName(collection)).Some? ==>
      r == ReadCollection(FileAt(store, gistId, FileName(collection)).value)
  {
    var f := FileAt(store, gistId, FileName(collection));
    if f.None? then Err(CollectionNotFound) else ReadCollection(f.value)
  }

  /** One entry of a PATCH body applied to a gist's files: a new content replaces or
      adds the file, `null` deletes it. */
  function ApplyChange(files: Entries<Content>, change: (string, Option<Content>)): (r: Entries<Content>)
    ensures Sorted(files) ==> Sorted(r)
    ensures forall n :: n != change.0 ==> Lookup(r, n) == Lookup(files, n)
    ensures change.1.Some? ==> Lookup(r, change.0) == change.1
    ensures change.1.None? ==> Lookup(r, change.0).None?
    ensures forall p :: p in r ==> p in files || (p.0, Some(p.1)) == change
  {
    if change.1.Some? then Insert(files, change.0, change.1.value) else Remove(files, change.0)
  }

  /** The PATCH of one gist's files: each named file is replaced or deleted, in order. */
  function PatchFiles(files: Entries<Content>, changes: Entries<Option<Content>>): (r: Entries<Content>)
    ensures Sorted(files) ==> Sorted(r)
    ensures forall n :: n !in Keys(changes) ==> Lookup(r, n) == Lookup(files, n)
    ensures Sorted(changes) ==> forall n :: n in Keys(changes) ==> Lookup(r, n) == Lookup(changes, n).value
    ensures forall p :: p in r ==> p in files || (p.0, Some(p.1)) in changes
    decreases |changes|
  {
    if |changes| == 0 then files
    else
      var next := ApplyChange(files, changes[0]);
      var r := PatchFiles(next, changes[1..]);
      PatchStep(files, changes, next, r);
      r
  }

  /** The first change of a PATCH followed by the rest has the effect of the whole. */
  lemma PatchStep(files: Entries<Content>, changes: Entries<Option<Content>>, next: Entries<Content>, r: Entries<Content>)
    requires |changes| > 0 && next == ApplyChange(files, changes[0])
    requires Sorted(next) ==> Sorted(r)
    requires forall n :: n !in Keys(changes[1..]) ==> Lookup(r, n) == Lookup(next, n)
    requires Sorted(changes[1..]) ==> forall n :: n in Keys(changes[1..]) ==> Lookup(r, n) == Lookup(changes[1..], n).value
    requires forall p :: p in r ==> p in next || (p.0, Some(p.1)) in changes[1..]
    ensures Sorted(files) ==> Sorted(r)
    ensures forall n :: n !in Keys(changes) ==> Lookup(r, n) == Lookup(files, n)
    ensures Sorted(changes) ==> forall n :: n in Keys(changes) ==> Lookup(r, n) == Lookup(changes, n).value
    ensures forall p :: p in r ==> p in files || (p.0, Some(p.1)) in changes
  {
    var n0 := changes[0].0;
    KeysCons(changes[0], changes[1..]);
    assert changes == [changes[0]] + changes[1..];
    assert forall p :: p in changes[1..] ==> p in changes;
    if Sorted(changes) {
      SortedHead(changes);
      BelowIrreflexive(n0);
      assert n0 !in Keys(changes[1..]);
      forall n | n in Keys(changes[1..])
        ensures Lookup(changes, n) == Lookup(changes[1..], n)
      {
        assert n != n0;
      }
    }
  }

  /** GitHub's PATCH of gist `gistId`: sets the description, changes the named files
      and nothing else. A PATCH to an id with no gist changes nothing. */
  function ApplyPatch(store: Store, gistId: string, p: Patch): (s: Store)
    ensures s.Keys == store.Keys
    ensures forall id :: id in store && id != gistId ==> s[id] == store[id]
    ensures gistId !in store ==> s == store
    ensures gistId in store ==>
      s[gistId].description == Some(p.description) && s[gistId].public == store[gistId].public
    ensures gistId in store ==>
      forall n :: n !in Keys(p.files) ==> Lookup(s[gistId].files, n) == Lookup(store[gistId].files, n)
    ensures gistId in store && Sorted(p.files) ==>
      forall n :: n in Keys(p.files) ==> Lookup(s[gistId].files, n) == Lookup(p.files, n).value
    ensures gistId in store && Sorted(store[gistId].files) ==> Sorted(s[gistId].files)
    ensures gistId in store ==>
      forall f :: f in s[gistId].files ==> f in store[gistId].files || (f.0, Some(f.1)) in p.files
  {
    if gistId in store then
      var g := store[gistId];
      store[gistId := Gist(Some(p.description), g.public, PatchFiles(g.files, p.files))]
    else store
  }

  /** A PATCH body naming exactly one file. */
  function OneFile(description: string, filename: string, change: Option<Content>): (p: Patch)
    ensures Sorted(p.files) && Keys(p.files) == {filename}
    ensures Lookup(p.files, filename) == Some(change)
  {
    var p := Patch(description, [(filename, change)]);
    KeysCons((filename, change), []);
    assert p.files == [(filename, change)] + [];
    p
  }

  /** What the parser can hand back: any parsed content is well-formed JSON. */
  predicate ContentWf(c: Content)
  {
    c.Parsed? ==> Wf(c.value)
  }

  /** A gist as GitHub replies with it: file names in order, parsed contents well formed. */
  predicate ValidGist(g: Gist)
  {
    Sorted(g.files) && forall i :: 0 <= i < |g.files| ==> ContentWf(g.files[i].1)
  }

  predicate ValidStore(store: Store)
  {
    forall id :: id in store ==> ValidGist(store[id])
  }

  /** A PATCH whose file changes are well formed keeps the store valid. */
  lemma PatchKeepsValid(store: Store, gistId: string, p: Patch)
    requires ValidStore(store)
    requires forall i :: 0 <= i < |p.files| && p.files[i].1.Some? ==> ContentWf(p.files[i].1.value)
    ensures ValidStore(ApplyPatch(store, gistId, p))
  {
    var s := ApplyPatch(store, gistId, p);
    if gistId in store {
      var fs := s[gistId].files;
      forall i | 0 <= i < |fs|
        ensures ContentWf(fs[i].1)
      {
        assert fs[i] in fs;
        if fs[i] !in store[gistId].files {
          assert (fs[i].0, Some(fs[i].1)) in p.files;
          var j :| 0 <= j < |p.files| && p.files[j] == (fs[i].0, Some(fs[i].1));
        } else {
          var j :| 0 <= j < |store[gistId].files| && store[gistId].files[j] == fs[i];
        }
      }
    }
  }

  /** The store after a handler's write-back of one collection file: the gist's
      description is the one read (or the default), the file holds an object, and
      every other file and every other gist is as before. */
  ghost predicate Rewrote(store: Store, store': Store, gistId: string, filename: string)
  {
    && gistId in store
    && store'.Keys == store.Keys
    && (forall id :: id in store && id != gistId ==> store'[id] == store[id])
    && store'[gistId].description == Some(DescriptionOf(Fetch(store, gistId)))
    && store'[gistId].public == store[gistId].public
    && (forall n :: n != filename ==> Lookup(store'[gistId].files, n) == Lookup(store[gistId].files, n))
  }

  /** The write-back every object handler ends with: PATCH the gist with the
      description it had (or the default) and the complete serialised map `ms` as the
      new content of the collection file. */
  function WriteCollection(store: Store, gistId: string, collection: string, ms: Entries<Json>): (s: Store)
    ensures gistId !in store ==> s == store
    ensures gistId in store ==> Rewrote(store, s, gistId, FileName(collection))
    ensures gistId in store ==> FileAt(s, gistId, FileName(collection)) == Some(Parsed(JObj(ms)))
    ensures gistId in store ==> Decoded(s, gistId, collection) == Ok(ms)
    ensures ValidStore(store) && Wf(JObj(ms)) ==> ValidStore(s)
  {
    var p := OneFile(DescriptionOf(Fetch(store, gistId)), FileName(collection), Some(Parsed(JObj(ms))));
    var s := ApplyPatch(store, gistId, p);
    assert ValidStore(store) && Wf(JObj(ms)) ==> ValidStore(s) by {
      if ValidStore(store) && Wf(JObj(ms)) {
        PatchKeepsValid(store, gistId, p);
      }
    }
    s
  }

  /** The map a write handler decodes from a valid store is well formed. */
  lemma DecodedWf(store: Store, gistId: string, collection: string)
    requires ValidStore(store)
    requires Decoded(store, gistId, collection).Ok?
    ensures Wf(JObj(Decoded(store, gistId, collection).value))
  {
    var c := FileAt(store, gistId, FileName(collection)).value;
    if c.Parsed? {
      var files := store[gistId].files;
      assert (FileName(collection), c) in files;
      var i :| 0 <= i < |files| && files[i] == (FileName(collection), c);
      assert ContentWf(files[i].1);
    }
  }
}

=== FILE: json.dfy ===
/**
  JSON values as serde_json's `Value` holds them, and the substring test of Rust's
  `str::contains`.
 */
module Json {
  import opened Base
  import opened Assoc

  /** `serde_json::Value`. Numbers are never matched by anything in the model, so an
      integer stands in for them; an object is a `Map` in its iteration order. */
  datatype Json =
    | JNull
    | JBool(b: bool)
    | JNum(n: int)
    | JStr(str: string)
    | JArr(items: seq<Json>)
    | JObj(members: Entries<Json>)

  /** The empty object `{}`, the content of a fresh collection file. */
  const EmptyObject: Json := JObj([])

  /** What `serde_json::from_str` can produce: every object, at every depth, holds its
      keys in increasing order without repeats. */
  predicate Wf(v: Json)
  {
    match v
    case JArr(items) => forall i :: 0 <= i < |items| ==> Wf(items[i])
    case JObj(ms) => Sorted(ms) && forall i :: 0 <= i < |ms| ==> Wf(ms[i].1)
    case _ => true
  }

  /** `Value::get(f)`: the member `f` of an object; nothing for any other value. */
  function Get(v: Json, f: string): (r: Option<Json>)
    ensures r.Some? ==> v.JObj? && f in Keys(v.members)
    ensures v.JObj? && f in Keys(v.members) ==> r.Some?
  {
    if v.JObj? then Lookup(v.members, f) else None
  }

  /** Rust's `s.contains(q)` on two strings: `q` occurs in `s` as a contiguous piece.
      Walks the start position from left to right. */
  predicate Contains(s: string, q: string)
    decreases |s|
  {
    q <= s || (|s| > 0 && Contains(s[1..], q))
  }

  /** `q` occurs in `s` starting at position `i`. */
  ghost predicate OccursAt(s: string, q: string, i: int)
  {
    0 <= i && i + |q| <= |s| && s[i..i + |q|] == q
  }

  lemma PrefixOccurs(s: string, q: string)
    ensures OccursAt(s, q, 0) <==> q <= s
  {
  }

  /** An occurrence past the first character is an occurrence in the tail, one place earlier. */
  lemma ShiftOccurs(s: string, q: string, i: int)
    requires |s| > 0 && 0 < i
    ensures OccursAt(s, q, i) <==> OccursAt(s[1..], q, i - 1)
  {
    if i + |q| <= |s| {
      assert s[1..][i - 1..i - 1 + |q|] == s[i..i + |q|];
    }
  }

  /** `Contains` finds `q` exactly when `q` occurs at some position of `s`. */
  lemma {:induction false} ContainsIffOccurs(s: string, q: string)
    ensures Contains(s, q) <==> exists i :: OccursAt(s, q, i)
  {
    PrefixOccurs(s, q);
    if |s| > 0 {
      ContainsIffOccurs(s[1..], q);
      forall i | 0 < i
        ensures OccursAt(s, q, i) <==> OccursAt(s[1..], q, i - 1)
      {
        ShiftOccurs(s, q, i);
      }
      if Contains(s[1..], q) {
        var i :| OccursAt(s[1..], q, i);
        assert OccursAt(s, q, i + 1);
      }
    }
  }

  /** The empty query occurs in every string, the empty one included. */
  lemma EmptyQueryOccurs(s: string)
    ensures Contains(s, "")
  {
  }
}

=== FILE: objects.dfy ===
/**
  The object handlers of `src/routes/object_routes.rs`. Each reads the whole gist,
  decodes the collection file as an object map, changes one entry in memory and writes
  the complete map back, with the description it read, as the file's new content.
 */
module Objects {
  import opened Base
  import opened Assoc
  import opened Json
  import opened Gists

  /** The `data` of a 201 from `create_object`: `{"data": …, "object_id": …}`. */
  function CreatedBody(objectId: string, data: Json): Json
  {
    JObj([("data", data), ("object_id", JStr(objectId))])
  }

  /** `create_object`. The object id that `Uuid::new_v4` would draw is a parameter. A
      PATCH that GitHub refuses still answers 201, and then nothing is stored. */
  function CreateObject(store: Store, gistId: string, collection: string, data: Json, objectId: string, net: Net)
    : (r: (Outcome, Store))
    ensures !net.readOk ==> r == (Failed(Upstream), store)
    ensures net.readOk && Decoded(store, gistId, collection).Err? ==>
      r == (Failed(Decoded(store, gistId, collection).fault), store)
    ensures net.readOk && !net.writeOk && Decoded(store, gistId, collection).Ok? ==> r == (Status(500, None), store)
    ensures r.0 == Status(201, Some(CreatedBody(objectId, data))) <==>
      net.readOk && net.writeOk && Decoded(store, gistId, collection).Ok?
    ensures r.0.Status? && r.0.code == 201 && net.applied ==>
      && Rewrote(store, r.1, gistId, FileName(collection))
      && Decoded(r.1, gistId, collection).Ok?
      && Lookup(Decoded(r.1, gistId, collection).value, objectId) == Some(data)
      && forall k :: k != objectId ==>
           Lookup(Decoded(r.1, gistId, collection).value, k) == Lookup(Decoded(store, gistId, collection).value, k)
    ensures r.0.Status? && r.0.code == 201 && !net.applied ==> r.1 == store
    ensures r.1 != store ==> r.0.Status? && r.0.code == 201 && net.applied
    ensures ValidStore(store) && Wf(data) ==> ValidStore(r.1)
  {
    if !net.readOk then (Failed(Upstream), store)
    else
      match Decoded(store, gistId, collection)
      case Err(f) => (Failed(f), store)
      case Ok(ms) =>
        if !net.writeOk then (Status(500, None), store)
        else
          var ms' := Insert(ms, objectId, data);
          assert ValidStore(store) && Wf(data) ==> Wf(JObj(ms')) by {
            if ValidStore(store) && Wf(data) {
              DecodedWf(store, gistId, collection);
              InsertKeepsWf(ms, objectId, data);
            }
          }
          (Status(201, Some(CreatedBody(objectId, data))), Commit(store, WriteCollection(store, gistId, collection, ms'), net))
  }

  /** `update_object`: the value under an existing id is replaced wholesale. A PATCH
      that GitHub refuses still answers 200, and then nothing changes. */
  function UpdateObject(store: Store, gistId: string, collection: string, objectId: string, data: Json, net: Net)
    : (r: (Outcome, Store))
    ensures !net.readOk ==> r == (Failed(Upstream), store)
    ensures net.readOk && Decoded(store, gistId, collection).Err? ==>
      r == (Failed(Decoded(store, gistId, collection).fault), store)
    ensures r.0 == Status(404, None) <==>
      net.readOk && Decoded(store, gistId, collection).Ok?
      && objectId !in Keys(Decoded(store, gistId, collection).value)
    ensures r.0 == Status(500, None) <==>
      net.readOk && !net.writeOk && Decoded(store, gistId, collection).Ok?
      && objectId in Keys(Decoded(store, gistId, collection).value)
    ensures r.0 == Status(200, Some(JObj([("updated", JStr(objectId))]))) <==>
      net.readOk && net.writeOk && Decoded(store, gistId, collection).Ok?
      && objectId in Keys(Decoded(store, gistId, collection).value)
    ensures r.0.Status? && r.0.code == 200 && net.applied ==>
      && Rewrote(store, r.1, gistId, FileName(collection))
      && Decoded(r.1, gistId, collection).Ok?
      && Lookup(Decoded(r.1, gistId, collection).value, objectId) == Some(data)
      && forall k :: k != objectId ==>
           Lookup(Decoded(r.1, gistId, collection).value, k) == Lookup(Decoded(store, gistId, collection).value, k)
    ensures r.0.Status? && r.0.code == 200 && !net.applied ==> r.1 == store
    ensures r.1 != store ==> r.0.Status? && r.0.code == 200 && net.applied
    ensures ValidStore(store) && Wf(data) ==> ValidStore(r.1)
  {
    if !net.readOk then (Failed(Upstream), store)
    else
      match Decoded(store, gistId, collection)
      case Err(f) => (Failed(f), store)
      case Ok(ms) =>
        if Lookup(ms, objectId).None? then (Status(404, None), store)
        else if !net.writeOk then (Status(500, None), store)
        else
          var ms' := Insert(ms, objectId, data);
          assert ValidStore(store) && Wf(data) ==> Wf(JObj(ms')) by {
            if ValidStore(store) && Wf(data) {
              DecodedWf(store, gistId, collection);
              InsertKeepsWf(ms, objectId, data);
            }
          }
          (Status(200, Some(JObj([("updated", JStr(objectId))]))), Commit(store, WriteCollection(store, gistId, collection, ms'), net))
  }

  /** `delete_object`. Unlike create and update it answers 404 when the collection
      file is absent, and it propagates a write that got no reply instead of answering
      500. A PATCH that GitHub refuses still answers 200, and then the id stays. */
  function DeleteObject(store: Store, gistId: string, collection: string, objectId: string, net: Net)
    : (r: (Outcome, Store))
    ensures !net.readOk ==> r == (Failed(Upstream), store)
    ensures r.0 == Status(404, None) <==>
      net.readOk &&
      (FileAt(store, gistId, FileName(collection)).None? ||
       (Decoded(store, gistId, collection).Ok? && objectId !in Keys(Decoded(store, gistId, collection).value)))
    ensures r.0 == Failed(Decode) <==> net.readOk && Decoded(store, gistId, collection) == Err(Decode)
    ensures r.0 == Status(200, Some(JObj([("deleted", JStr(objectId))]))) <==>
      net.readOk && net.writeOk && Decoded(store, gistId, collection).Ok?
      && objectId in Keys(Decoded(store, gistId, collection).value)
    ensures r.0.Status? && r.0.code == 200 && net.applied ==>
      && Rewrote(store, r.1, gistId, FileName(collection))
      && Decoded(r.1, gistId, collection).Ok?
      && Keys(Decoded(r.1, gistId, collection).value) == Keys(Decoded(store, gistId, collection).value) - {objectId}
      && forall k :: k != objectId ==>
           Lookup(Decoded(r.1, gistId, collection).value, k) == Lookup(Decoded(store, gistId, collection).value, k)
    ensures r.0.Status? && r.0.code == 200 && !net.applied ==> r.1 == store
    ensures r.1 != store ==> r.0.Status? && r.0.code == 200 && net.applied
    ensures ValidStore(store) ==> ValidStore(r.1)
  {
    if !net.readOk then (Failed(Upstream), store)
    else
      var file := FileAt(store, gistId, FileName(collection));
      if file.None? then (Status(404, None), store)
      else
        match ReadCollection(file.value)
        case Err(f) => (Failed(f), store)
        case Ok(ms) =>
          if Lookup(ms, objectId).None? then (Status(404, None), store)
          else if !net.writeOk then (Failed(Upstream), store)
          else
            var ms' := Remove(ms, objectId);
            assert ValidStore(store) ==> Wf(JObj(ms')) by {
              if ValidStore(store) {
                DecodedWf(store, gistId, collection);
                RemoveKeepsWf(ms, objectId);
              }
            }
            (Status(200, Some(JObj([("deleted", JStr(objectId))]))), Commit(store, WriteCollection(store, gistId, collection, ms'), net))
  }

  lemma InsertKeepsWf(ms: Entries<Json>, k: string, v: Json)
    requires Wf(JObj(ms)) && Wf(v)
    ensures Wf(JObj(Insert(ms, k, v)))
  {
    var r := Insert(ms, k, v);
    forall i | 0 <= i < |r|
      ensures Wf(r[i].1)
    {
      assert r[i] in r;
      if r[i] != (k, v) {
        var j :| 0 <= j < |ms| && ms[j] == r[i];
      }
    }
  }

  lemma RemoveKeepsWf(ms: Entries<Json>, k: string)
    requires Wf(JObj(ms))
    ensures Wf(JObj(Remove(ms, k)))
  {
    var r := Remove(ms, k);
    forall i | 0 <= i < |r|
      ensures Wf(r[i].1)
    {
      assert r[i] in r;
      var j :| 0 <= j < |ms| && ms[j] == r[i];
    }
  }
}

=== FILE: scenarios.dfy ===
/**
  Properties that span several requests: what one handler writes, the next one reads.
 */
module Scenarios {
  import opened Base
  import opened Assoc
  import opened Json
  import opened Search
  import opened Gists
  import opened Objects
  import opened Collections
  import opened Databases
  import opened SearchCache
  import opened SearchRoute

  /** Creating a collection and then getting it by name answers the empty object. */
  lemma CreateThenGetCollection(store: Store, gistId: string, name: string, net: Net)
    requires net.readOk && net.writeOk && net.applied
    requires gistId in store && FileAt(store, gistId, FileName(name)).None?
    ensures GetCollection(CreateCollection(store, gistId, name, net).1, gistId, Some(name), net)
         == Status(200, Some(EmptyObject))
  {
  }

  /** A created database answers the id of its gist, and getting its collection from
      that gist answers the empty object. */
  lemma CreateDatabaseThenGetCollection(store: Store, name: string, newId: string, net: Net)
    requires net.readOk && net.writeOk && net.applied
    ensures var r := CreateDatabase(store, name, newId, net);
      && r.0.Status? && r.0.data.Some? && r.0.data.value.JObj?
      && Lookup(r.0.data.value.members, "gist_id") == Some(JStr(newId))
      && GetCollection(r.1, newId, Some(name), net) == Status(200, Some(EmptyObject))
  {
    var r := CreateDatabase(store, name, newId, net);
    assert Below("collection_name", "gist_id");
    assert FileAt(r.1, newId, FileName(name)) == Some(Parsed(EmptyObject));
  }

  /** A created object is in the collection that a later get answers. */
  lemma CreateThenGetObject(store: Store, gistId: string, collection: string, data: Json, objectId: string, net: Net)
    requires net.readOk && net.writeOk && net.applied
    requires Decoded(store, gistId, collection).Ok?
    ensures var o := GetCollection(CreateObject(store, gistId, collection, data, objectId, net).1, gistId, Some(collection), net);
      && o.Status? && o.code == 200 && o.data.Some? && o.data.value.JObj?
      && Lookup(o.data.value.members, objectId) == Some(data)
  {
    var s := CreateObject(store, gistId, collection, data, objectId, net).1;
    assert FileAt(s, gistId, FileName(collection)) == Some(Parsed(JObj(Decoded(s, gistId, collection).value)));
  }

  /** Updating an object twice leaves exactly the second value; the other objects are
      those before the first update. */
  lemma UpdateTwiceKeepsLast(store: Store, gistId: string, collection: string, objectId: string,
                             x: Json, y: Json, net: Net)
    requires net.readOk && net.writeOk && net.applied
    requires Decoded(store, gistId, collection).Ok?
    requires objectId in Keys(Decoded(store, gistId, collection).value)
    ensures var s1 := UpdateObject(store, gistId, collection, objectId, x, net).1;
      var s2 := UpdateObject(s1, gistId, collection, objectId, y, net).1;
      && Decoded(s2, gistId, collection).Ok?
      && Lookup(Decoded(s2, gistId, collection).value, objectId) == Some(y)
      && forall k :: k != objectId ==>
           Lookup(Decoded(s2, gistId, collection).value, k) == Lookup(Decoded(store, gistId, collection).value, k)
  {
    var s1 := UpdateObject(store, gistId, collection, objectId, x, net).1;
    assert Lookup(Decoded(s1, gistId, collection).value, objectId) == Some(x);
  }

  /** After a delete the object is gone, and deleting it again answers 404 and
      changes nothing. */
  lemma DeleteTwiceIsNotFound(store: Store, gistId: string, collection: string, objectId: string, net: Net)
    requires net.readOk && net.writeOk && net.applied
    requires Decoded(store, gistId, collection).Ok?
    requires objectId in Keys(Decoded(store, gistId, collection).value)
    ensures var s1 := DeleteObject(store, gistId, collection, objectId, net).1;
      && Decoded(s1, gistId, collection).Ok?
      && Lookup(Decoded(s1, gistId, collection).value, objectId).None?
      && DeleteObject(s1, gistId, collection, objectId, net) == (Status(404, None), s1)
  {
  }

  /** An object created with a string field containing the query is found by a search
      on that field through an empty cache. */
  lemma CreateThenSearchFinds(store: Store, gistId: string, collection: string, objectId: string,
                              field: string, s: string, q: string, net: Net)
    requires net.readOk && net.writeOk && net.applied
    requires Decoded(store, gistId, collection).Ok?
    requires Contains(s, q)
    ensures var s1 := CreateObject(store, gistId, collection, JObj([(field, JStr(s))]), objectId, net).1;
      var o := SearchObjects(s1, map[], gistId, collection, q, Some(field), net).0;
      o.Status? && o.data.Some? && o.data.value.JArr? && JStr(objectId) in o.data.value.items
  {
    var data := JObj([(field, JStr(s))]);
    var s1 := CreateObject(store, gistId, collection, data, objectId, net).1;
    EmptyCacheSearch(s1, gistId, collection, q, Some(field), net);
    var ms := Decoded(s1, gistId, collection).value;
    assert FileAt(s1, gistId, FileName(collection)) == Some(Parsed(JObj(ms)));
    assert Get(data, field) == Some(JStr(s));
    assert (objectId, data) in ms;
    var i :| 0 <= i < |ms| && ms[i] == (objectId, data);
    assert Matches(ms[i].1, q, Some(field));
    var ids := Search.Search(JObj(ms), q, Some(field));
    assert objectId in ids;
    var j :| 0 <= j < |ids| && ids[j] == objectId;
    assert IdList(ids).items[j] == JStr(objectId);
  }

  /** After a delete, a search through an empty cache never lists the deleted id. */
  lemma DeleteThenSearchMisses(store: Store, gistId: string, collection: string, objectId: string,
                               q: string, field: Option<string>, net: Net)
    requires net.readOk && net.writeOk && net.applied
    requires Decoded(store, gistId, collection).Ok?
    requires objectId in Keys(Decoded(store, gistId, collection).value)
    ensures var s1 := DeleteObject(store, gistId, collection, objectId, net).1;
      var o := SearchObjects(s1, map[], gistId, collection, q, field, net).0;
      o.Status? ==> o.data.Some? && o.data.value.JArr? && JStr(objectId) !in o.data.value.items
  {
    var s1 := DeleteObject(store, gistId, collection, objectId, net).1;
    EmptyCacheSearch(s1, gistId, collection, q, field, net);
    DeletedNotFound(store, gistId, collection, objectId, q, field, net);
  }

  lemma DeletedNotFound(store: Store, gistId: string, collection: string, objectId: string,
                        q: string, field: Option<string>, net: Net)
    requires net.readOk && net.writeOk && net.applied
    requires Decoded(store, gistId, collection).Ok?
    requires objectId in Keys(Decoded(store, gistId, collection).value)
    ensures var s1 := DeleteObject(store, gistId, collection, objectId, net).1;
      var res := RunSearch(s1, gistId, collection, q, field, net);
      res.Ok? ==> res.value.JArr? && JStr(objectId) !in res.value.items
  {
    var r := DeleteObject(store, gistId, collection, objectId, net);
    var s1 := r.1;
    assert r.0.Status? && r.0.code == 200;
    var ms := Decoded(s1, gistId, collection).value;
    assert objectId !in Keys(ms);
    var res := RunSearch(s1, gistId, collection, q, field, net);
    if res.Ok? {
      var v := FileAt(s1, gistId, FileName(collection)).value.value;
      var ids := Search.Search(v, q, field);
      assert v == JObj(ms);
      assert objectId !in ids;
      assert forall j :: 0 <= j < |ids| ==> IdList(ids).items[j] == JStr(ids[j]);
    }
  }

  /** With the corrected key the two-collection example answers each collection's own
      ids: `b` is searched afresh after `a`. */
  lemma CrossCollectionScopedFresh()
    ensures var store := TwoCollections();
      var (_, cache1) := SearchObjectsScoped(store, map[], "g", "a", "x", None, Net(true, false, false));
      SearchObjectsScoped(store, cache1, "g", "b", "x", None, Net(true, false, false)).0
        == Answer(RunSearch(store, "g", "b", "x", None, Net(true, false, false)))
  {
    var store := TwoCollections();
    EmptyCacheCoherent(store);
    ScopedSearchIsFresh(store, map[], "g", "a", "x", None, Net(true, false, false));
    var (_, cache1) := SearchObjectsScoped(store, map[], "g", "a", "x", None, Net(true, false, false));
    ScopedSearchIsFresh(store, cache1, "g", "b", "x", None, Net(true, false, false));
  }
}

=== FILE: scoped_key.dfy ===
/**
  The path of the corrected search cache key: every input of a search, each escaped so
  that the path holds only characters a URL parser leaves alone, and so that the path
  decodes back into the inputs.

  The Workers cache compares keys as parsed URLs: the parser drops a fragment, resolves
  `.` and `..` segments, reads `\` as `/`, strips tabs and newlines, and re-encodes
  some characters. A path made only of ASCII letters, digits, `-`, `_` and `/`, whose
  segments all start with a letter, is already in the parser's normal form, so two such
  keys name the same entry exactly when they are equal strings.
 */
module ScopedKeys {
  import opened Base

  /** Characters a component keeps as they are: ASCII letters, digits and `-`. */
  predicate Plain(ch: char)
  {
    ('a' <= ch <= 'z') || ('A' <= ch <= 'Z') || ('0' <= ch <= '9') || ch == '-'
  }

  /** Characters of an escaped component: the plain ones and the escape mark `_`. */
  predicate UrlSafe(ch: char)
  {
    Plain(ch) || ch == '_'
  }

  /** A key path: URL-safe characters and the separator `/`. */
  predicate PathSafe(s: string)
  {
    forall i :: 0 <= i < |s| ==> UrlSafe(s[i]) || s[i] == '/'
  }

  predicate Safe(s: string)
  {
    forall i :: 0 <= i < |s| ==> UrlSafe(s[i])
  }

  function HexDigit(d: nat): (ch: char)
    requires d < 16
    ensures Plain(ch) && ch != '-'
  {
    if d < 10 then ('0' as int + d) as char else ('a' as int + d - 10) as char
  }

  lemma HexDigitInjective(d: nat, e: nat)
    requires d < 16 && e < 16 && HexDigit(d) == HexDigit(e)
    ensures d == e
  {
  }

  function Pow16(k: nat): nat
  {
    if k == 0 then 1 else 16 * Pow16(k - 1)
  }

  /** The `k` lowest hexadecimal digits of `n`, most significant first. */
  function Hex(n: nat, k: nat): (h: string)
    ensures |h| == k && Safe(h)
  {
    if k == 0 then "" else Hex(n / 16, k - 1) + [HexDigit(n % 16)]
  }

  /** `k` hexadecimal digits tell apart all numbers below 16^k. */
  lemma {:induction false} HexInjective(n: nat, m: nat, k: nat)
    requires n < Pow16(k) && m < Pow16(k)
    requires Hex(n, k) == Hex(m, k)
    ensures n == m
  {
    if k > 0 {
      var h := Hex(n, k);
      assert h[k - 1] == HexDigit(n % 16) && h[k - 1] == HexDigit(m % 16);
      HexDigitInjective(n % 16, m % 16);
      assert Hex(n / 16, k - 1) == h[..k - 1] == Hex(m / 16, k - 1);
      HexInjective(n / 16, m / 16, k - 1);
    }
  }

  /** Every character code lies below 16^6. */
  lemma CharBelowPow16(ch: char)
    ensures ch as int < Pow16(6)
  {
    assert Pow16(6) == 0x100_0000 by {
      assert Pow16(2) == 256;
      assert Pow16(4) == 65536;
    }
  }

  /** The escape of one character: a plain character stands for itself, any other is
      `_` and six hexadecimal digits of its code. */
  function EscChar(ch: char): (e: string)
    ensures |e| > 0 && Safe(e)
    ensures Plain(ch) <==> e[0] != '_'
    ensures Plain(ch) ==> e == [ch]
    ensures !Plain(ch) ==> |e| == 7 && e[1..] == Hex(ch as int, 6)
  {
    if Plain(ch) then [ch] else "_" + Hex(ch as int, 6)
  }

  /** One escaped character at the front can be told apart from the rest. */
  lemma EscCharPrefix(a: char, b: char, x: string, y: string)
    requires EscChar(a) + x == EscChar(b) + y
    ensures a == b && x == y
  {
    var u := EscChar(a) + x;
    assert u[0] == EscChar(a)[0] && u[0] == EscChar(b)[0];
    if !Plain(a) {
      assert EscChar(a)[1..] == u[1..7] == EscChar(b)[1..];
      CharBelowPow16(a);
      CharBelowPow16(b);
      HexInjective(a as int, b as int, 6);
    }
    assert EscChar(a) == EscChar(b);
    assert x == u[|EscChar(a)|..];
  }

  /** The escape of a string, character by character. */
  function Escape(s: string): (e: string)
    ensures Safe(e)
  {
    if |s| == 0 then "" else EscChar(s[0]) + Escape(s[1..])
  }

  /** Escaping loses nothing: different strings escape differently. */
  lemma {:induction false} EscapeInjective(s: string, t: string)
    requires Escape(s) == Escape(t)
    ensures s == t
  {
    if |s| > 0 && |t| > 0 {
      EscCharPrefix(s[0], t[0], Escape(s[1..]), Escape(t[1..]));
      EscapeInjective(s[1..], t[1..]);
      assert s == [s[0]] + s[1..] && t == [t[0]] + t[1..];
    } else {
      assert |Escape(s)| == 0 <==> |s| == 0;
      assert |Escape(t)| == 0 <==> |t| == 0;
    }
  }

  /** A key component: the letter `c` and the escaped string, so that no component is
      empty or a dot segment. */
  function Component(s: string): (c: string)
    ensures |c| > 0 && Safe(c) && c[0] == 'c' && '/' !in c
  {
    "c" + Escape(s)
  }

  lemma ComponentInjective(s: string, t: string)
    requires Component(s) == Component(t)
    ensures s == t
  {
    assert Escape(s) == Component(s)[1..] == Escape(t);
    EscapeInjective(s, t);
  }

  /** The field component: `n` without a field, `f` and the escaped name with one, so
      that no field and the empty field name differ. */
  function FieldTag(field: Option<string>): (tag: string)
    ensures |tag| > 0 && Safe(tag) && '/' !in tag && (tag[0] == 'n' || tag[0] == 'f')
    ensures field.None? <==> tag[0] == 'n'
  {
    if field.Some? then "f" + Escape(field.value) else "n"
  }

  lemma FieldTagInjective(f1: Option<string>, f2: Option<string>)
    requires FieldTag(f1) == FieldTag(f2)
    ensures f1 == f2
  {
    if f1.Some? && f2.Some? {
      assert Escape(f1.value) == FieldTag(f1)[1..] == Escape(f2.value);
      EscapeInjective(f1.value, f2.value);
    }
  }

  /** A key component, the separator, and the rest of the path. */
  function Segment(part: string, rest: string): (s: string)
    ensures Safe(part) && PathSafe(rest) ==> PathSafe(s)
  {
    var s := part + "/" + rest;
    assert forall i :: 0 <= i < |part| ==> s[i] == part[i];
    assert forall i :: |part| < i < |s| ==> s[i] == rest[i - |part| - 1];
    s
  }

  /** A segment whose component has no separator splits back into its two parts. */
  lemma SegmentSplit(a: string, b: string, c: string, d: string)
    requires '/' !in a && '/' !in c
    requires Segment(a, b) == Segment(c, d)
    ensures a == c && b == d
  {
    var u := Segment(a, b);
    assert u[|a|] == '/' && u[|c|] == '/';
    assert forall i :: 0 <= i < |a| ==> u[i] == a[i];
    assert forall i :: 0 <= i < |c| ==> u[i] == c[i];
    assert a == u[..|a|] == c;
    assert b == u[|a| + 1..] == d;
  }

  /** The path of the corrected key: gist, collection, field and query. */
  function ScopedPath(gistId: string, collection: string, query: string, field: Option<string>): (p: string)
    ensures PathSafe(p)
  {
    Segment(Component(gistId), Segment(Component(collection), Segment(FieldTag(field), Component(query))))
  }

  /** Distinct requests never share a path. */
  lemma ScopedPathInjective(g1: string, c1: string, q1: string, f1: Option<string>,
                            g2: string, c2: string, q2: string, f2: Option<string>)
    requires ScopedPath(g1, c1, q1, f1) == ScopedPath(g2, c2, q2, f2)
    ensures g1 == g2 && c1 == c2 && q1 == q2 && f1 == f2
  {
    SegmentSplit(Component(g1), Segment(Component(c1), Segment(FieldTag(f1), Component(q1))),
                 Component(g2), Segment(Component(c2), Segment(FieldTag(f2), Component(q2))));
    SegmentSplit(Component(c1), Segment(FieldTag(f1), Component(q1)),
                 Component(c2), Segment(FieldTag(f2), Component(q2)));
    SegmentSplit(FieldTag(f1), Component(q1), FieldTag(f2), Component(q2));
    ComponentInjective(g1, g2);
    ComponentInjective(c1, c2);
    ComponentInjective(q1, q2);
    FieldTagInjective(f1, f2);
  }
}

=== FILE: search.dfy ===
/**
  The snapshot search of `src/utils/search.rs`: `search_json` lists the top-level keys of
  a collection snapshot whose value matches a substring query, either in one named
  string field or anywhere in the value's string leaves.
 */
module Search {
  import opened Base
  import opened Assoc
  import opened Json

  /** `json_contains`: a string matches when it contains the query, an array when some
      element matches, an object when some member VALUE matches; object keys, numbers,
      booleans and null are never looked at. */
  predicate JsonContains(v: Json, q: string)
  {
    match v
    case JStr(s) => Contains(s, q)
    case JArr(items) => exists i :: 0 <= i < |items| && JsonContains(items[i], q)
    case JObj(ms) => exists i :: 0 <= i < |ms| && JsonContains(ms[i].1, q)
    case _ => false
  }

  /** `matches_query`: with a field, the value's member of that name must be a string
      containing the query; without one, `json_contains` decides. */
  predicate Matches(v: Json, q: string, field: Option<string>)
  {
    match field
    case Some(f) =>
      var m := Get(v, f);
      m.Some? && m.value.JStr? && Contains(m.value.str, q)
    case None => JsonContains(v, q)
  }

  /** The loop of `search_json` over the members of the snapshot object. */
  function SearchMembers(ms: Entries<Json>, q: string, field: Option<string>): (ids: seq<string>)
    ensures forall k :: k in ids <==> exists i :: 0 <= i < |ms| && ms[i].0 == k && Matches(ms[i].1, q, field)
    ensures Sorted(ms) ==> Increasing(ids)
    ensures |ids| <= |ms|
  {
    if |ms| == 0 then []
    else
      var rest := SearchMembers(ms[1..], q, field);
      assert forall i :: 0 < i < |ms| ==> ms[1..][i - 1] == ms[i];
      assert Sorted(ms) ==> Increasing(rest) && forall k :: k in rest ==> Below(ms[0].0, k) by {
        if Sorted(ms) {
          assert Sorted(ms[1..]);
        }
      }
      if Matches(ms[0].1, q, field) then
        var ids := [ms[0].0] + rest;
        assert forall j :: 0 < j < |ids| ==> ids[j] == rest[j - 1];
        ids
      else rest
  }

  /** `search_json`: the matching top-level keys of an object snapshot, and nothing for
      a snapshot that is not an object. */
  function Search(data: Json, q: string, field: Option<string>): (ids: seq<string>)
    ensures !data.JObj? ==> ids == []
    ensures data.JObj? ==> forall k :: k in ids <==>
      exists i :: 0 <= i < |data.members| && data.members[i].0 == k && Matches(data.members[i].1, q, field)
    ensures forall k :: k in ids ==> data.JObj? && k in Keys(data.members)
    ensures Wf(data) ==> Increasing(ids)
  {
    if data.JObj? then SearchMembers(data.members, q, field) else []
  }

  /** Two increasing sequences with the same elements are the same sequence. */
  lemma {:induction false} IncreasingUnique(a: seq<string>, b: seq<string>)
    requires Increasing(a) && Increasing(b)
    requires forall k :: k in a <==> k in b
    ensures a == b
  {
    assert |a| > 0 ==> a[0] in a;
    assert |b| > 0 ==> b[0] in b;
    if |a| > 0 && |b| > 0 {
      assert b[0] in a && a[0] in b;
      if a[0] != b[0] {
        var i :| 0 <= i < |a| && a[i] == b[0];
        var j :| 0 <= j < |b| && b[j] == a[0];
        assert Below(a[0], b[0]) by {
          assert i > 0;
        }
        assert Below(b[0], a[0]) by {
          assert j > 0;
        }
        BelowAsymmetric(a[0], b[0]);
      }
      forall k
        ensures k in a[1..] <==> k in b[1..]
      {
        if k in a[1..] {
          var i :| 0 <= i < |a| - 1 && a[1..][i] == k;
          assert Below(a[0], a[i + 1]);
          BelowIrreflexive(k);
          assert a[i + 1] in a;
          var j :| 0 <= j < |b| && b[j] == k;
          assert j != 0;
          assert b[1..][j - 1] == k;
        }
        if k in b[1..] {
          var j :| 0 <= j < |b| - 1 && b[1..][j] == k;
          assert Below(b[0], b[j + 1]);
          BelowIrreflexive(k);
          assert b[j + 1] in b;
          var i :| 0 <= i < |a| && a[i] == k;
          assert i != 0;
          assert a[1..][i - 1] == k;
        }
      }
      IncreasingUnique(a[1..], b[1..]);
      assert a == [a[0]] + a[1..] && b == [b[0]] + b[1..];
    }
  }

  /** On a well-formed object, the search answer is THE increasing list of exactly the
      keys whose value matches: any other increasing list of those keys equals it. */
  lemma SearchIsMatchingKeysInOrder(ms: Entries<Json>, q: string, field: Option<string>, ids: seq<string>)
    requires Wf(JObj(ms))
    requires Increasing(ids)
    requires forall k :: k in ids <==> exists v :: Lookup(ms, k) == Some(v) && Matches(v, q, field)
    ensures Search(JObj(ms), q, field) == ids
  {
    var r := Search(JObj(ms), q, field);
    forall k
      ensures k in r <==> k in ids
    {
      if k in r {
        var i :| 0 <= i < |ms| && ms[i].0 == k && Matches(ms[i].1, q, field);
        LookupSorted(ms, i);
      }
      if k in ids {
        var v :| Lookup(ms, k) == Some(v) && Matches(v, q, field);
        assert (k, v) in ms;
        var i :| 0 <= i < |ms| && ms[i] == (k, v);
        assert ms[i].0 == k && Matches(ms[i].1, q, field);
      }
    }
    IncreasingUnique(r, ids);
  }

  /** With a field `f`, a value matches iff it is an object whose member `f` is a
      string containing the query; a missing or non-string member, or a non-object
      value, never matches. */
  lemma FieldMatch(v: Json, q: string, f: string)
    requires Wf(v)
    ensures Matches(v, q, Some(f)) <==> v.JObj? && exists s :: (f, JStr(s)) in v.members && Contains(s, q)
  {
    if v.JObj? {
      forall s | (f, JStr(s)) in v.members
        ensures Get(v, f) == Some(JStr(s))
      {
        LookupIffMember(v.members, f, JStr(s));
      }
    }
  }

  /** The strings reachable from a value through arrays and object member values. */
  ghost function Leaves(v: Json): set<string>
  {
    match v
    case JStr(s) => {s}
    case JArr(items) => set i, s | 0 <= i < |items| && s in Leaves(items[i]) :: s
    case JObj(ms) => set i, s | 0 <= i < |ms| && s in Leaves(ms[i].1) :: s
    case _ => {}
  }

  lemma LeavesOfObject(ms: Entries<Json>)
    ensures forall s :: s in Leaves(JObj(ms)) <==> exists i :: 0 <= i < |ms| && s in Leaves(ms[i].1)
  {
  }

  /** Some string reachable from `v` contains `q`. */
  ghost predicate SomeLeafContains(v: Json, q: string)
  {
    exists s :: s in Leaves(v) && Contains(s, q)
  }

  /** Without a field, a value matches iff one of the strings reachable from it
      contains the query. */
  lemma {:induction false} ContainsIffSomeLeaf(v: Json, q: string)
    ensures JsonContains(v, q) <==> SomeLeafContains(v, q)
    decreases v, 1
  {
    match v
    case JStr(s) =>
      assert s in Leaves(v);
    case JArr(items) =>
      ContainsIffSomeLeafArray(items, q);
    case JObj(ms) =>
      ContainsIffSomeLeafObject(ms, q);
    case _ =>
  }

  lemma {:induction false} ContainsIffSomeLeafArray(items: seq<Json>, q: string)
    ensures JsonContains(JArr(items), q) <==> SomeLeafContains(JArr(items), q)
    decreases JArr(items), 0
  {
    var v := JArr(items);
    forall i | 0 <= i < |items|
      ensures JsonContains(items[i], q) <==> SomeLeafContains(items[i], q)
    {
      ContainsIffSomeLeaf(items[i], q);
    }
    if JsonContains(v, q) {
      var i :| 0 <= i < |items| && JsonContains(items[i], q);
      assert SomeLeafContains(items[i], q);
      var s :| s in Leaves(items[i]) && Contains(s, q);
      assert s in Leaves(v);
      assert SomeLeafContains(v, q);
    }
    if SomeLeafContains(v, q) {
      var s :| s in Leaves(v) && Contains(s, q);
      var i :| 0 <= i < |items| && s in Leaves(items[i]);
      assert SomeLeafContains(items[i], q);
      assert JsonContains(items[i], q);
    }
  }

  lemma {:induction false} ContainsIffSomeLeafObject(ms: Entries<Json>, q: string)
    ensures JsonContains(JObj(ms), q) <==> SomeLeafContains(JObj(ms), q)
    decreases JObj(ms), 0
  {
    var v := JObj(ms);
    LeavesOfObject(ms);
    forall i | 0 <= i < |ms|
      ensures JsonContains(ms[i].1, q) <==> SomeLeafContains(ms[i].1, q)
    {
      ContainsIffSomeLeaf(ms[i].1, q);
    }
    if JsonContains(v, q) {
      var i :| 0 <= i < |ms| && JsonContains(ms[i].1, q);
      assert SomeLeafContains(ms[i].1, q);
      var s :| s in Leaves(ms[i].1) && Contains(s, q);
      assert s in Leaves(v);
      assert SomeLeafContains(v, q);
    }
    if SomeLeafContains(v, q) {
      var s :| s in Leaves(v) && Contains(s, q);
      var i :| 0 <= i < |ms| && s in Leaves(ms[i].1);
      assert SomeLeafContains(ms[i].1, q);
      assert JsonContains(ms[i].1, q);
    }
  }

  /** The empty query matches exactly the values from which some string is reachable:
      `{"n": 1}` does not match it, `[""]` does. */
  lemma EmptyQueryMatchesIffSomeString(v: Json)
    ensures JsonContains(v, "") <==> Leaves(v) != {}
  {
    ContainsIffSomeLeaf(v, "");
    if Leaves(v) != {} {
      var s :| s in Leaves(v);
      EmptyQueryOccurs(s);
      assert SomeLeafContains(v, "");
    }
  }

  /** Keys are never searched: renaming the members of an object while keeping their
      values in place does not change whether it matches. */
  lemma KeysNeverSearched(ms: Entries<Json>, ns: Entries<Json>, q: string)
    requires |ms| == |ns|
    requires forall i :: 0 <= i < |ms| ==> ms[i].1 == ns[i].1
    ensures JsonContains(JObj(ms), q) <==> JsonContains(JObj(ns), q)
  {
    if JsonContains(JObj(ms), q) {
      var i :| 0 <= i < |ms| && JsonContains(ms[i].1, q);
      assert JsonContains(ns[i].1, q);
    }
    if JsonContains(JObj(ns), q) {
      var i :| 0 <= i < |ns| && JsonContains(ns[i].1, q);
      assert JsonContains(ms[i].1, q);
    }
  }
}

=== FILE: search_route.dfy ===
/**
  The search endpoint of `src/routes/search_routes.rs`: fetch the collection file,
  parse it, run `search_json` and answer the id list, all behind the get-or-compute
  cache under a key built from the gist id and the query.
 */
module SearchRoute {
  import opened Base
  import opened Assoc
  import opened Json
  import opened Search
  import opened Gists
  import opened SearchCache
  import opened ScopedKeys
  import opened Url

  const KeyPrefix: string := Origin + "/search/"

  /** The cache key as the handler formats it: the prefix, the gist id, `/` and the
      query; the collection and the field are not part of it. */
  function CacheKey(gistId: string, query: string): (k: string)
    ensures |k| == |KeyPrefix| + |gistId| + 1 + |query|
    ensures k[..|KeyPrefix|] == KeyPrefix
    ensures k[|KeyPrefix|..|KeyPrefix| + |gistId|] == gistId
    ensures k[|KeyPrefix| + |gistId|] == '/'
    ensures k[|KeyPrefix| + |gistId| + 1..] == query
  {
    KeyPrefix + gistId + "/" + query
  }

  /** A key under the prefix is a path whose first segment is `search`. */
  lemma UnderPrefix(rest: string)
    ensures KeyPrefix + rest == Origin + "/" + ("search" + "/" + rest)
  {
    var k := KeyPrefix + rest;
    var k' := Origin + "/" + ("search" + "/" + rest);
    assert |k| == |k'|;
    assert forall i :: 0 <= i < |KeyPrefix| ==> k[i] == k'[i];
    assert forall i :: |KeyPrefix| <= i < |k| ==> k[i] == rest[i - |KeyPrefix|] == k'[i];
  }

  /** The key's path is `search`, the gist id and the query, as segments. */
  lemma CacheKeySegments(gistId: string, query: string)
    ensures CacheKey(gistId, query) == Origin + "/" + Join(["search", gistId, query])
  {
    UnderPrefix(gistId + "/" + query);
    ConcatAssoc(KeyPrefix + gistId, "/", query);
    ConcatAssoc(KeyPrefix, gistId, "/" + query);
    ConcatAssoc(gistId, "/", query);
    JoinThree("search", gistId, query);
  }

  lemma SearchIsClean()
    ensures Clean("search")
  {
    assert "search" == ['s', 'e', 'a', 'r', 'c', 'h'];
    LetterFirstClean("search");
  }

  /** A key whose gist id and query are clean segments is in normal form. */
  lemma CleanCacheKeyFixed(gistId: string, query: string)
    requires Clean(gistId) && Clean(query)
    ensures UrlKey(CacheKey(gistId, query)) == CacheKey(gistId, query)
  {
    CacheKeySegments(gistId, query);
    SearchIsClean();
    var segs := ["search", gistId, query];
    assert forall i :: 0 <= i < |segs| ==> Clean(segs[i]);
    CleanKeyFixed(segs);
  }

  /** For a gist id and a query that are clean segments (GitHub's ids are
      hexadecimal), the cache entry names one gist and one query. */
  lemma CacheKeyDecodes(g1: string, q1: string, g2: string, q2: string)
    requires Clean(g1) && Clean(q1) && Clean(g2) && Clean(q2)
    requires UrlKey(CacheKey(g1, q1)) == UrlKey(CacheKey(g2, q2))
    ensures g1 == g2 && q1 == q2
  {
    CleanCacheKeyFixed(g1, q1);
    CleanCacheKeyFixed(g2, q2);
    RawKeyDecodes(g1, q1, g2, q2);
  }

  lemma RawKeyDecodes(g1: string, q1: string, g2: string, q2: string)
    requires '/' !in g1 && '/' !in g2
    requires CacheKey(g1, q1) == CacheKey(g2, q2)
    ensures g1 == g2 && q1 == q2
  {
    var k := CacheKey(g1, q1);
    assert Segment(g1, q1) == k[|KeyPrefix|..] == Segment(g2, q2);
    SegmentSplit(g1, q1, g2, q2);
  }

  /** A query starting with `../` climbs out of the gist's segment: any two gists' keys
      name the same entry. */
  lemma DotSegmentsShareKey(g1: string, g2: string, q: string)
    requires Clean(g1) && Clean(g2) && Clean(q)
    ensures UrlKey(CacheKey(g1, "../" + q)) == UrlKey(CacheKey(g2, "../" + q)) == Origin + "/search/" + q
  {
    DotKeyResolves(g1, q);
    DotKeyResolves(g2, q);
  }

  lemma DotKeyResolves(g: string, q: string)
    requires Clean(g) && Clean(q)
    ensures UrlKey(CacheKey(g, "../" + q)) == Origin + "/search/" + q
  {
    var segs := ["search", g, "..", q];
    SearchIsClean();
    assert ".." == ['.', '.'];
    assert forall i :: 0 <= i < |segs| ==> InertText(segs[i]);
    var empty: seq<string> := [];
    calc {
      UrlKey(CacheKey(g, "../" + q));
      { DotKeyPath(g, q); }
      UrlKey(Origin + "/" + Join(segs));
      { ParseSegments(segs); }
      Origin + Serialize(Resolve(empty, segs));
      { DotResolve(g, q); }
      Origin + Serialize(["search", q]);
      { SerializeTwo("search", q); assert "/" + "search" + "/" + q == "/search/" + q; }
      Origin + ("/search/" + q);
      { ConcatAssoc(Origin, "/search/", q); }
      Origin + "/search/" + q;
    }
  }

  lemma SerializeTwo(a: string, b: string)
    ensures Serialize([a, b]) == "/" + a + "/" + b
  {
    assert [a, b][1..] == [b];
    assert [b][1..] == [];
    assert Serialize([b]) == "/" + b + "";
    assert Serialize([a, b]) == "/" + a + ("/" + b);
    ConcatAssoc("/" + a, "/", b);
  }

  lemma DotKeyPath(g: string, q: string)
    ensures CacheKey(g, "../" + q) == Origin + "/" + Join(["search", g, "..", q])
  {
    CacheKeySegments(g, "../" + q);
    JoinThree("search", g, "../" + q);
    JoinFour("search", g, "..", q);
    assert "../" + q == ".." + "/" + q;
  }

  /** `..` removes the gist's segment. */
  lemma DotResolve(g: string, q: string)
    requires Clean(g) && Clean(q)
    ensures Resolve([], ["search", g, "..", q]) == ["search", q]
  {
    var empty: seq<string> := [];
    SearchIsClean();
    assert DoubleDot("..");
    assert ["search", g, "..", q][1..] == [g, "..", q];
    assert [g, "..", q][1..] == ["..", q];
    assert ["..", q][1..] == [q];
    assert ["search", g][..1] == ["search"];
    calc {
      Resolve(empty, ["search", g, "..", q]);
      Resolve(empty + ["search"], [g, "..", q]);
      { assert empty + ["search"] == ["search"]; }
      Resolve(["search"], [g, "..", q]);
      { assert ["search"] + [g] == ["search", g]; }
      Resolve(["search", g], ["..", q]);
      { assert ["search", g][..1] + [] == ["search"]; }
      Resolve(["search"], [q]);
      { assert ["search"] + [q] == ["search", q]; }
      Resolve(["search", q], []);
    }
  }

  /** A fragment in the query never reaches the cache. */
  lemma FragmentSharesKey(gistId: string, query: string, fragment: string)
    requires Printable(gistId) && Printable(query) && Printable(fragment)
    requires '#' !in gistId && '#' !in query
    ensures UrlKey(CacheKey(gistId, query + "#" + fragment)) == UrlKey(CacheKey(gistId, query))
  {
    var k := CacheKey(gistId, query);
    OriginPrintable();
    assert KeyPrefix == ['h', 't', 't', 'p', 's', ':', '/', '/', 'g', 'i', 's', 't', 'd', 'b', '.', 'c', 'o', 'm',
                         '/', 's', 'e', 'a', 'r', 'c', 'h', '/'];
    assert forall i :: 0 <= i < |k| ==> k[i] == if i < |KeyPrefix| then KeyPrefix[i]
      else if i < |KeyPrefix| + |gistId| then gistId[i - |KeyPrefix|]
      else if i == |KeyPrefix| + |gistId| then '/' else query[i - |KeyPrefix| - |gistId| - 1];
    assert Printable(k) && '#' !in k;
    assert CacheKey(gistId, query + "#" + fragment) == k + "#" + fragment;
    FragmentIgnored(k, fragment);
  }

  /** `github_service::get_gist_file`, as the search handler uses it: the text of one
      file of one gist. It fails when the GET fails, when the gist or the file is not
      there, or when the file has no string content. */
  function GistFile(store: Store, gistId: string, filename: string, net: Net): (r: Result<Content>)
    ensures r.Ok? <==> net.readOk && FileAt(store, gistId, filename).Some? && !FileAt(store, gistId, filename).value.Missing?
    ensures r.Ok? ==> r.value == FileAt(store, gistId, filename).value
    ensures r.Err? ==> r.fault == Upstream
  {
    if !net.readOk then Err(Upstream)
    else
      var f := FileAt(store, gistId, filename);
      if f.None? || f.value.Missing? then Err(Upstream) else Ok(f.value)
  }

  /** `json!(search_results)`: the id list as a JSON array of strings. */
  function IdList(ids: seq<string>): (v: Json)
    ensures v.JArr? && |v.items| == |ids|
    ensures forall i :: 0 <= i < |ids| ==> v.items[i] == JStr(ids[i])
  {
    JArr(seq(|ids|, i requires 0 <= i < |ids| => JStr(ids[i])))
  }

  /** The computation handed to `cached_search`: fetch `<collection>.json`, parse it,
      search it. Parsing fails on unparseable text; any parsed value is searched, and
      one that is not an object finds nothing. */
  function RunSearch(store: Store, gistId: string, collection: string, query: string,
                     field: Option<string>, net: Net): (r: Result<Json>)
    ensures r.Ok? <==> net.readOk && FileAt(store, gistId, FileName(collection)).Some?
                       && FileAt(store, gistId, FileName(collection)).value.Parsed?
    ensures r.Ok? ==> r.value == IdList(Search.Search(FileAt(store, gistId, FileName(collection)).value.value, query, field))
    ensures net.readOk && FileAt(store, gistId, FileName(collection)) == Some(Unparseable) ==> r == Err(Decode)
  {
    match GistFile(store, gistId, FileName(collection), net)
    case Err(f) => Err(f)
    case Ok(Parsed(v)) => Ok(IdList(Search.Search(v, query, field)))
    case Ok(_) => Err(Decode)
  }

  /** The handler's answer for the cache's result: 200 with the list, or the error. */
  function Answer(res: Result<Json>): (o: Outcome)
    ensures res.Ok? <==> o.Status?
    ensures res.Ok? ==> o == Status(200, Some(res.value))
    ensures res.Err? ==> o == Failed(res.fault)
  {
    if res.Ok? then Status(200, Some(res.value)) else Failed(res.fault)
  }

  /** `search_objects` as written. */
  function SearchObjects(store: Store, cache: Cache, gistId: string, collection: string, query: string,
                         field: Option<string>, net: Net): (r: (Outcome, Cache))
    ensures UrlKey(CacheKey(gistId, query)) in cache ==>
      r == (Status(200, Some(cache[UrlKey(CacheKey(gistId, query))])), cache)
    ensures UrlKey(CacheKey(gistId, query)) !in cache ==>
      r.0 == Answer(RunSearch(store, gistId, collection, query, field, net))
    ensures UrlKey(CacheKey(gistId, query)) !in cache && r.0.Status? ==>
      r.1 == cache[UrlKey(CacheKey(gistId, query)) := r.0.data.value]
    ensures r.0.Failed? ==> r.1 == cache
  {
    var (res, cache') := CachedSearch(cache, CacheKey(gistId, query), RunSearch(store, gistId, collection, query, field, net));
    (Answer(res), cache')
  }

  /** Through an empty cache the handler answers a fresh search. */
  lemma EmptyCacheSearch(store: Store, gistId: string, collection: string, query: string,
                         field: Option<string>, net: Net)
    ensures SearchObjects(store, map[], gistId, collection, query, field, net).0
         == Answer(RunSearch(store, gistId, collection, query, field, net))
  {
  }

  /** Requests that differ only in collection and field share one cache entry: once
      the first has answered 200, the second is served the first's answer, whatever
      the store then holds and whatever its own collection contains. */
  lemma SecondRequestServedFirstAnswer(store: Store, store': Store, cache: Cache, gistId: string,
                                       c1: string, c2: string, query: string,
                                       f1: Option<string>, f2: Option<string>, net: Net, net': Net)
    requires SearchObjects(store, cache, gistId, c1, query, f1, net).0.Status?
    ensures var (o1, cache1) := SearchObjects(store, cache, gistId, c1, query, f1, net);
      SearchObjects(store', cache1, gistId, c2, query, f2, net') == (o1, cache1)
  {
    var (o1, cache1) := SearchObjects(store, cache, gistId, c1, query, f1, net);
    assert UrlKey(CacheKey(gistId, query)) in cache1;
  }

  /** More generally, any request whose key names the same URL is served the first
      answer: another gist's, through `..` in the query, or another query's, through
      a fragment. */
  lemma SameUrlServedFirstAnswer(store: Store, store': Store, cache: Cache,
                                 g1: string, c1: string, q1: string, f1: Option<string>, net: Net,
                                 g2: string, c2: string, q2: string, f2: Option<string>, net': Net)
    requires UrlKey(CacheKey(g1, q1)) == UrlKey(CacheKey(g2, q2))
    requires SearchObjects(store, cache, g1, c1, q1, f1, net).0.Status?
    ensures var (o1, cache1) := SearchObjects(store, cache, g1, c1, q1, f1, net);
      SearchObjects(store', cache1, g2, c2, q2, f2, net') == (o1, cache1)
  {
    var (o1, cache1) := SearchObjects(store, cache, g1, c1, q1, f1, net);
    assert UrlKey(CacheKey(g1, q1)) in cache1;
  }

  /** A store with one gist `g` holding two collections, `a` with object `1` and `b`
      with object `2`, both `{"title": "x"}`. */
  function TwoCollections(): (store: Store)
    ensures "g" in store && ValidStore(store)
  {
    var obj := JObj([("title", JStr("x"))]);
    var files := [("a.json", Parsed(JObj([("1", obj)]))), ("b.json", Parsed(JObj([("2", obj)])))];
    assert Below(files[0].0, files[1].0);
    assert Wf(files[0].1.value) && Wf(files[1].1.value);
    map["g" := Gist(None, false, [("a.json", Parsed(JObj([("1", obj)]))), ("b.json", Parsed(JObj([("2", obj)])))])]
  }

  /** As written, searching collection `b` right after collection `a` answers `a`'s
      ids: the answer is `["1"]` where a fresh search of `b` gives `["2"]`. */
  lemma CrossCollectionStaleAnswer()
    ensures var store := TwoCollections();
      var (_, cache1) := SearchObjects(store, map[], "g", "a", "x", None, Net(true, false, false));
      && SearchObjects(store, cache1, "g", "b", "x", None, Net(true, false, false)).0 == Status(200, Some(IdList(["1"])))
      && RunSearch(store, "g", "b", "x", None, Net(true, false, false)) == Ok(IdList(["2"]))
      && IdList(["1"]) != IdList(["2"])
  {
    var store := TwoCollections();
    var obj := JObj([("title", JStr("x"))]);
    assert Contains("x", "x");
    assert JsonContains(obj, "x") by {
      assert JsonContains(obj.members[0].1, "x");
    }
    assert FileAt(store, "g", FileName("a")) == Some(Parsed(JObj([("1", obj)])));
    assert FileAt(store, "g", FileName("b")) == Some(Parsed(JObj([("2", obj)])));
    assert Search.Search(JObj([("1", obj)]), "x", None) == ["1"];
    assert Search.Search(JObj([("2", obj)]), "x", None) == ["2"];
    assert IdList(["1"]).items[0] != IdList(["2"]).items[0];
  }

  /** Two gists `g1` and `g2`, each with a collection `a`: `g1`'s holds object `1` and
      `g2`'s object `2`, both `{"title": "../q"}`. */
  function TwoGists(): (store: Store)
    ensures "g1" in store && "g2" in store && ValidStore(store)
  {
    var obj := JObj([("title", JStr("../q"))]);
    assert Wf(JObj([("1", obj)])) && Wf(JObj([("2", obj)]));
    map["g1" := Gist(None, false, [("a.json", Parsed(JObj([("1", obj)])))]),
        "g2" := Gist(None, false, [("a.json", Parsed(JObj([("2", obj)])))])]
  }

  /** As written, searching gist `g2` for `../q` right after gist `g1` answers `g1`'s
      ids: both keys parse to `https://gistdb.com/search/q`, so another database's
      answer `["1"]` is served where a fresh search gives `["2"]`. */
  lemma CrossGistStaleAnswer()
    ensures var store := TwoGists();
      var (_, cache1) := SearchObjects(store, map[], "g1", "a", "../q", None, Net(true, false, false));
      && SearchObjects(store, cache1, "g2", "a", "../q", None, Net(true, false, false)).0 == Status(200, Some(IdList(["1"])))
      && RunSearch(store, "g2", "a", "../q", None, Net(true, false, false)) == Ok(IdList(["2"]))
  {
    TwoGistsSearch();
    TwoGistsShareKey();
  }

  lemma TwoGistsShareKey()
    ensures UrlKey(CacheKey("g1", "../q")) == UrlKey(CacheKey("g2", "../q"))
  {
    LiteralsClean();
    assert "../q" == "../" + "q";
    DotSegmentsShareKey("g1", "g2", "q");
  }

  lemma LiteralsClean()
    ensures Clean("g1") && Clean("g2") && Clean("q")
  {
    LetterFirstClean("g1");
    LetterFirstClean("g2");
    LetterFirstClean("q");
  }

  /** Inert text starting with a letter is no dot segment. */
  lemma LetterFirstClean(s: string)
    requires |s| > 0 && InertText(s) && 'a' <= s[0] <= 'z'
    ensures Clean(s)
  {
  }

  lemma TwoGistsSearch()
    ensures RunSearch(TwoGists(), "g1", "a", "../q", None, Net(true, false, false)) == Ok(IdList(["1"]))
    ensures RunSearch(TwoGists(), "g2", "a", "../q", None, Net(true, false, false)) == Ok(IdList(["2"]))
  {
    var store := TwoGists();
    var obj := JObj([("title", JStr("../q"))]);
    assert Contains("../q", "../q");
    assert JsonContains(obj, "../q") by {
      assert JsonContains(obj.members[0].1, "../q");
    }
    assert FileAt(store, "g1", FileName("a")) == Some(Parsed(JObj([("1", obj)])));
    assert FileAt(store, "g2", FileName("a")) == Some(Parsed(JObj([("2", obj)])));
    assert Search.Search(JObj([("1", obj)]), "../q", None) == ["1"];
    assert Search.Search(JObj([("2", obj)]), "../q", None) == ["2"];
  }

  /** As written, a query with a fragment is served the answer cached for the query
      without it: on the two-collection store, `x#z` after `x` answers `["1"]`, where
      a fresh search for `x#z` finds nothing. */
  lemma FragmentStaleAnswer()
    ensures var store := TwoCollections();
      var (_, cache1) := SearchObjects(store, map[], "g", "a", "x", None, Net(true, false, false));
      && SearchObjects(store, cache1, "g", "a", "x#z", None, Net(true, false, false)).0 == Status(200, Some(IdList(["1"])))
      && RunSearch(store, "g", "a", "x#z", None, Net(true, false, false)) == Ok(IdList([]))
  {
    FragmentSearch();
    FragmentKey();
  }

  lemma FragmentKey()
    ensures UrlKey(CacheKey("g", "x#z")) == UrlKey(CacheKey("g", "x"))
  {
    assert "g" == ['g'] && "x" == ['x'] && "z" == ['z'];
    assert "x#z" == "x" + "#" + "z";
    FragmentSharesKey("g", "x", "z");
  }

  lemma FragmentSearch()
    ensures RunSearch(TwoCollections(), "g", "a", "x", None, Net(true, false, false)) == Ok(IdList(["1"]))
    ensures RunSearch(TwoCollections(), "g", "a", "x#z", None, Net(true, false, false)) == Ok(IdList([]))
  {
    var store := TwoCollections();
    var obj := JObj([("title", JStr("x"))]);
    assert Contains("x", "x");
    assert JsonContains(obj, "x") by {
      assert JsonContains(obj.members[0].1, "x");
    }
    assert !Contains("x", "x#z");
    assert !JsonContains(obj, "x#z") by {
      assert !JsonContains(obj.members[0].1, "x#z");
    }
    assert FileAt(store, "g", FileName("a")) == Some(Parsed(JObj([("1", obj)])));
    assert Search.Search(JObj([("1", obj)]), "x", None) == ["1"];
    assert Search.Search(JObj([("1", obj)]), "x#z", None) == [];
  }

  /** The cache key of the corrected handler: the prefix and a path naming every input
      the answer depends on. */
  function ScopedKey(gistId: string, collection: string, query: string, field: Option<string>): (k: string)
    ensures |k| > |KeyPrefix| && k[..|KeyPrefix|] == KeyPrefix
    ensures PathSafe(k[|KeyPrefix|..])
    ensures UrlKey(k) == k
  {
    var k := KeyPrefix + ScopedPath(gistId, collection, query, field);
    assert k[|KeyPrefix|..] == ScopedPath(gistId, collection, query, field);
    ScopedKeyFixed(gistId, collection, query, field);
    k
  }

  lemma CleanComponent(s: string)
    requires |s| > 0 && Safe(s) && 'a' <= s[0] <= 'z'
    ensures Clean(s)
  {
  }

  /** The corrected key is already in the URL parser's normal form. */
  lemma ScopedKeyFixed(gistId: string, collection: string, query: string, field: Option<string>)
    ensures UrlKey(KeyPrefix + ScopedPath(gistId, collection, query, field))
         == KeyPrefix + ScopedPath(gistId, collection, query, field)
  {
    var a, b, c, d := Component(gistId), Component(collection), FieldTag(field), Component(query);
    var segs := ["search", a, b, c, d];
    CleanComponent(a);
    CleanComponent(b);
    CleanComponent(c);
    CleanComponent(d);
    SearchIsClean();
    assert forall i :: 0 <= i < |segs| ==> Clean(segs[i]);
    assert segs[1..] == [a, b, c, d];
    JoinFour(a, b, c, d);
    assert ScopedPath(gistId, collection, query, field) == Join([a, b, c, d]);
    UnderPrefix(Join([a, b, c, d]));
    CleanKeyFixed(segs);
  }

  /** Distinct requests never share a corrected key. */
  lemma ScopedKeyInjective(g1: string, c1: string, q1: string, f1: Option<string>,
                           g2: string, c2: string, q2: string, f2: Option<string>)
    requires ScopedKey(g1, c1, q1, f1) == ScopedKey(g2, c2, q2, f2)
    ensures g1 == g2 && c1 == c2 && q1 == q2 && f1 == f2
  {
    var k := ScopedKey(g1, c1, q1, f1);
    assert ScopedPath(g1, c1, q1, f1) == k[|KeyPrefix|..] == ScopedPath(g2, c2, q2, f2);
    ScopedPathInjective(g1, c1, q1, f1, g2, c2, q2, f2);
  }

  /** `search_objects` with the corrected key. */
  function SearchObjectsScoped(store: Store, cache: Cache, gistId: string, collection: string, query: string,
                               field: Option<string>, net: Net): (r: (Outcome, Cache))
    ensures ScopedKey(gistId, collection, query, field) in cache ==>
      r == (Status(200, Some(cache[ScopedKey(gistId, collection, query, field)])), cache)
    ensures ScopedKey(gistId, collection, query, field) !in cache ==>
      r.0 == Answer(RunSearch(store, gistId, collection, query, field, net))
    ensures ScopedKey(gistId, collection, query, field) !in cache && r.0.Status? ==>
      r.1 == cache[ScopedKey(gistId, collection, query, field) := r.0.data.value]
    ensures r.0.Failed? ==> r.1 == cache
  {
    var key := ScopedKey(gistId, collection, query, field);
    var (res, cache') := CachedSearch(cache, key, RunSearch(store, gistId, collection, query, field, net));
    (Answer(res), cache')
  }

  /** Every cached entry is what a fresh search of `store` would answer for the
      request its key names. */
  ghost predicate Coherent(cache: Cache, store: Store)
  {
    forall g, c, q, f :: ScopedKey(g, c, q, f) in cache ==>
      RunSearch(store, g, c, q, f, Net(true, true, true)) == Ok(cache[ScopedKey(g, c, q, f)])
  }

  lemma EmptyCacheCoherent(store: Store)
    ensures Coherent(map[], store)
  {
  }

  /** With the corrected key, and while the store does not change, a cached answer is
      always the fresh one and the cache stays coherent. */
  lemma ScopedSearchIsFresh(store: Store, cache: Cache, gistId: string, collection: string, query: string,
                            field: Option<string>, net: Net)
    requires Coherent(cache, store)
    requires net.readOk
    ensures var (o, cache') := SearchObjectsScoped(store, cache, gistId, collection, query, field, net);
      && o == Answer(RunSearch(store, gistId, collection, query, field, net))
      && Coherent(cache', store)
  {
    var key := ScopedKey(gistId, collection, query, field);
    var (o, cache') := SearchObjectsScoped(store, cache, gistId, collection, query, field, net);
    assert RunSearch(store, gistId, collection, query, field, net)
        == RunSearch(store, gistId, collection, query, field, Net(true, true, true));
    if key !in cache {
      forall g, c, q, f | ScopedKey(g, c, q, f) in cache'
        ensures RunSearch(store, g, c, q, f, Net(true, true, true)) == Ok(cache'[ScopedKey(g, c, q, f)])
      {
        if ScopedKey(g, c, q, f) == key {
          ScopedKeyInjective(g, c, q, f, gistId, collection, query, field);
        }
      }
    }
  }
}

=== FILE: sparse_index.dfy ===
/**
  The sparse secondary index of `src/services/index_service.rs`: one Bloom filter per
  field that lives as long as the index, and a sampled id-to-value map built from a
  collection snapshot by taking every `granularity`-th entry.
 */
module SparseIndex {
  import opened Base
  import opened Assoc
  import opened Json

  /** Size in bits of every per-field filter: `BloomFilter::with_size(100000, 1)`. */
  const FilterBits: nat := 100000

  /** A Bloom filter with one hash function, seen as the set of bit positions that are
      on and the hash function the filter drew when it was created
      (`BloomFilter::with_size` seeds fresh hashers for every filter). The hash
      functions themselves live in the `bloom` crate, outside this model. */
  datatype BloomFilter = BloomFilter(bits: set<nat>, hash: string -> nat)

  /** The bit that string `s` sets and tests. */
  function BitOf(hash: string -> nat, s: string): (b: nat)
    ensures b < FilterBits
  {
    hash(s) % FilterBits
  }

  /** `BloomFilter::contains`: true for every inserted string, and possibly for
      others that share a bit with one (a false positive). */
  predicate FilterContains(f: BloomFilter, s: string)
  {
    BitOf(f.hash, s) in f.bits
  }

  /** `BloomFilter::insert`: the inserted string is found afterwards, and so is
      everything that was found before. */
  function FilterInsert(f: BloomFilter, s: string): (r: BloomFilter)
    ensures r.hash == f.hash
    ensures FilterContains(r, s)
    ensures forall t :: FilterContains(f, t) ==> FilterContains(r, t)
    ensures f.bits <= r.bits && |r.bits - f.bits| <= 1
  {
    var r := BloomFilter(f.bits + {BitOf(f.hash, s)}, f.hash);
    assert r.bits - f.bits <= {BitOf(f.hash, s)};
    r
  }

  /** The filter over-approximates: with hashers that send two strings to the same
      bit, inserting one makes the filter report the other, never inserted. */
  lemma FalsePositive()
    ensures var f := FilterInsert(BloomFilter({}, s => 0), "a");
      FilterContains(f, "b") && !FilterContains(BloomFilter({}, s => 0), "b")
  {
  }

  /** `SparseIndex`: the sampling stride and the filters created so far, by field. */
  datatype Index = Index(granularity: nat, fieldIndexes: map<string, BloomFilter>)

  /** `SparseIndex::exists_in_index`: asks the field's filter; a field that was never
      indexed has no filter and answers false. */
  function ExistsInIndex(idx: Index, field: string, value: string): (r: bool)
    ensures field !in idx.fieldIndexes ==> !r
    ensures field in idx.fieldIndexes ==> (r <==> FilterContains(idx.fieldIndexes[field], value))
  {
    field in idx.fieldIndexes && FilterContains(idx.fieldIndexes[field], value)
  }

  /** `SparseIndex::new`: no filters yet, so nothing exists in the index. */
  function New(granularity: nat): (idx: Index)
    ensures idx.granularity == granularity
    ensures forall f, s :: !ExistsInIndex(idx, f, s)
  {
    Index(granularity, map[])
  }

  /** The entry at 0-based position `i` of the snapshot is sampled (its position is a
      multiple of the granularity) and has value `v` under `field`. Every position
      counts, whether or not its entry has the field. */
  ghost predicate Sampled(data: Entries<Json>, field: string, granularity: nat, i: int, k: string, v: Json)
  {
    && granularity > 0
    && 0 <= i < |data|
    && i % granularity == 0
    && data[i].0 == k
    && Get(data[i].1, field) == Some(v)
  }

  /** The bits set by the string values among the first `n` entries of a sampled
      index; other values set none. */
  function StringBitsUpTo(index: Entries<Json>, hash: string -> nat, n: nat): set<nat>
    requires n <= |index|
  {
    set i | 0 <= i < n && index[i].1.JStr? :: BitOf(hash, index[i].1.str)
  }

  /** The bits set by the string values of a whole sampled index. */
  function StringBits(index: Entries<Json>, hash: string -> nat): set<nat>
  {
    StringBitsUpTo(index, hash, |index|)
  }

  /** Taking one more entry adds its bit when its value is a string, and nothing else. */
  lemma StringBitsStep(index: Entries<Json>, hash: string -> nat, n: nat)
    requires n < |index|
    ensures StringBitsUpTo(index, hash, n + 1) ==
      StringBitsUpTo(index, hash, n) + (if index[n].1.JStr? then {BitOf(hash, index[n].1.str)} else {})
  {
    var extra := if index[n].1.JStr? then {BitOf(hash, index[n].1.str)} else {};
    forall b | b in StringBitsUpTo(index, hash, n + 1)
      ensures b in StringBitsUpTo(index, hash, n) + extra
    {
      var i :| 0 <= i < n + 1 && index[i].1.JStr? && b == BitOf(hash, index[i].1.str);
      if i < n {
        assert b in StringBitsUpTo(index, hash, n);
      }
    }
  }

  lemma SortedKeysDistinct(data: Entries<Json>, i: int, j: int)
    requires Sorted(data) && 0 <= i < j < |data|
    ensures data[i].0 != data[j].0
  {
    BelowIrreflexive(data[i].0);
  }

  /** One step of the sampling loop: the entry at position `counter` joins the
      index exactly when it is sampled. */
  lemma SampleStep(data: Entries<Json>, field: string, g: nat, counter: nat,
                   index: Entries<Json>, index': Entries<Json>)
    requires Sorted(data) && g > 0 && counter < |data|
    requires forall k, v :: Lookup(index, k) == Some(v) <==>
      exists i :: 0 <= i < counter && Sampled(data, field, g, i, k, v)
    requires index' == if counter % g == 0 && Get(data[counter].1, field).Some?
                       then Insert(index, data[counter].0, Get(data[counter].1, field).value)
                       else index
    ensures forall k, v :: Lookup(index', k) == Some(v) <==>
      exists i :: 0 <= i < counter + 1 && Sampled(data, field, g, i, k, v)
  {
    var id := data[counter].0;
    forall j | 0 <= j < counter
      ensures data[j].0 != id
    {
      SortedKeysDistinct(data, j, counter);
    }
    forall k, v
      ensures Lookup(index', k) == Some(v) <==> exists i :: 0 <= i < counter + 1 && Sampled(data, field, g, i, k, v)
    {
      if k == id {
        assert !exists i :: 0 <= i < counter && Sampled(data, field, g, i, k, v);
        if Sampled(data, field, g, counter, k, v) {
          assert index' == Insert(index, id, v);
        }
      } else {
        assert !Sampled(data, field, g, counter, k, v);
      }
    }
  }

  /** The sampling loop of `create_index`: visits every entry, counting positions
      from 0, and keeps `id ↦ value` for the sampled entries that have the field. */
  method Sample(data: Entries<Json>, field: string, g: nat) returns (index: Entries<Json>)
    requires Sorted(data)
    requires g > 0 || |data| == 0
    ensures Sorted(index)
    ensures forall k, v :: Lookup(index, k) == Some(v) <==> exists i :: Sampled(data, field, g, i, k, v)
  {
    index := [];
    var counter := 0;
    while counter < |data|
      invariant 0 <= counter <= |data|
      invariant Sorted(index)
      invariant forall k, v :: Lookup(index, k) == Some(v) <==>
        exists i :: 0 <= i < counter && Sampled(data, field, g, i, k, v)
    {
      ghost var before := index;
      if counter % g == 0 {
        var m := Get(data[counter].1, field);
        if m.Some? {
          index := Insert(index, data[counter].0, m.value);
        }
      }
      SampleStep(data, field, g, counter, before, index);
      counter := counter + 1;
    }
  }

  /** The filter loop of `create_index`: every string value of the index is inserted
      into the filter; numbers, booleans, null, arrays and objects are skipped. */
  method InsertStrings(filter: BloomFilter, index: Entries<Json>) returns (filter': BloomFilter)
    ensures filter'.hash == filter.hash
    ensures filter'.bits == filter.bits + StringBits(index, filter.hash)
  {
    filter' := filter;
    var n := 0;
    while n < |index|
      invariant 0 <= n <= |index|
      invariant filter'.hash == filter.hash
      invariant filter'.bits == filter.bits + StringBitsUpTo(index, filter.hash, n)
    {
      StringBitsStep(index, filter.hash, n);
      if index[n].1.JStr? {
        filter' := FilterInsert(filter', index[n].1.str);
      }
      n := n + 1;
    }
  }

  /** `SparseIndex::create_index`. The granularity may be zero only for an empty
      snapshot: otherwise `counter % 0` panics. The field's filter is created on first
      use, with the hashers `freshHash` it draws then, and kept; other fields' filters
      are left alone. */
  method CreateIndex(idx: Index, data: Entries<Json>, field: string, freshHash: string -> nat)
    returns (idx': Index, index: Entries<Json>)
    requires Sorted(data)
    requires idx.granularity > 0 || |data| == 0
    ensures Sorted(index)
    ensures forall k, v :: Lookup(index, k) == Some(v) <==> exists i :: Sampled(data, field, idx.granularity, i, k, v)
    ensures idx'.granularity == idx.granularity
    ensures field in idx'.fieldIndexes
    ensures idx'.fieldIndexes[field].hash ==
      (if field in idx.fieldIndexes then idx.fieldIndexes[field].hash else freshHash)
    ensures idx'.fieldIndexes[field].bits ==
      (if field in idx.fieldIndexes then idx.fieldIndexes[field].bits else {})
      + StringBits(index, idx'.fieldIndexes[field].hash)
    ensures forall f :: f != field ==> (f in idx'.fieldIndexes <==> f in idx.fieldIndexes)
    ensures forall f :: f != field && f in idx.fieldIndexes ==> idx'.fieldIndexes[f] == idx.fieldIndexes[f]
    ensures forall k, s :: Lookup(index, k) == Some(JStr(s)) ==> ExistsInIndex(idx', field, s)
    ensures forall f, s :: ExistsInIndex(idx, f, s) ==> ExistsInIndex(idx', f, s)
  {
    index := Sample(data, field, idx.granularity);
    var filter := if field in idx.fieldIndexes then idx.fieldIndexes[field] else BloomFilter({}, freshHash);
    filter := InsertStrings(filter, index);
    idx' := Index(idx.granularity, idx.fieldIndexes[field := filter]);

    forall k, s | Lookup(index, k) == Some(JStr(s))
      ensures ExistsInIndex(idx', field, s)
    {
      var i :| 0 <= i < |index| && index[i] == (k, JStr(s));
      assert BitOf(filter.hash, s) in StringBits(index, filter.hash);
    }
  }
}

=== FILE: url.dfy ===
/**
  How the Workers cache turns a key string into the URL it stores and matches entries
  under: the parsing steps of the URL Standard that can change a key of the form
  `https://gistdb.com/...`. Leading and trailing C0 controls and spaces are trimmed,
  tabs and newlines removed, the fragment dropped, `\` read as `/` in the path, path
  and query characters percent-encoded, and `.` and `..` path segments resolved.
 */
module Url {
  import opened Base

  const Origin: string := "https://gistdb.com"

  /** A C0 control or a space: trimmed from both ends of the input. */
  predicate ControlOrSpace(ch: char)
  {
    ch <= ' '
  }

  predicate TabOrNewline(ch: char)
  {
    ch == '\t' || ch == '\n' || ch == '\r'
  }

  /** Characters that are never trimmed, removed, encoded or treated as a delimiter,
      under any revision of the percent-encode sets. */
  predicate Inert(ch: char)
  {
    '!' <= ch <= '~' && ch !in "\"#<>?`{}\\/^'|[]"
  }

  predicate Printable(s: string)
  {
    forall i :: 0 <= i < |s| ==> !ControlOrSpace(s[i])
  }

  function TrimStart(s: string): (t: string)
    ensures |t| == 0 || !ControlOrSpace(t[0])
    ensures |s| == 0 || !ControlOrSpace(s[0]) ==> t == s
  {
    if |s| > 0 && ControlOrSpace(s[0]) then TrimStart(s[1..]) else s
  }

  function TrimEnd(s: string): (t: string)
    ensures |t| == 0 || !ControlOrSpace(t[|t| - 1])
    ensures |s| == 0 || !ControlOrSpace(s[|s| - 1]) ==> t == s
  {
    if |s| > 0 && ControlOrSpace(s[|s| - 1]) then TrimEnd(s[..|s| - 1]) else s
  }

  function StripTabs(s: string): (t: string)
    ensures forall i :: 0 <= i < |t| ==> !TabOrNewline(t[i])
  {
    if |s| == 0 then ""
    else (if TabOrNewline(s[0]) then "" else [s[0]]) + StripTabs(s[1..])
  }

  lemma {:induction false} StripTabsKeeps(s: string)
    requires Printable(s)
    ensures StripTabs(s) == s
  {
    if |s| > 0 {
      StripTabsKeeps(s[1..]);
      assert s == [s[0]] + s[1..];
    }
  }

  /** The input as the parser sees it after trimming and removing tabs and newlines. */
  function Prepare(key: string): string
  {
    StripTabs(TrimEnd(TrimStart(key)))
  }

  /** A printable key reaches the parser unchanged. */
  lemma PrepareKeeps(key: string)
    requires Printable(key)
    ensures Prepare(key) == key
  {
    StripTabsKeeps(key);
  }

  /** The text before the first `c`, and the text after it when there is one. */
  function Cut(s: string, c: char): (r: (string, Option<string>))
    ensures r.1.None? ==> r.0 == s && c !in s
    ensures r.1.Some? ==> s == r.0 + [c] + r.1.value && c !in r.0
  {
    if |s| == 0 then ("", None)
    else if s[0] == c then ("", Some(s[1..]))
    else
      var (a, b) := Cut(s[1..], c);
      assert b.Some? ==> s == [s[0]] + a + [c] + b.value;
      ([s[0]] + a, b)
  }

  /** The first `c` is where the text splits. */
  lemma {:induction false} CutAt(a: string, c: char, b: string)
    requires c !in a
    ensures Cut(a + [c] + b, c) == (a, Some(b))
  {
    if |a| > 0 {
      var s := a + [c] + b;
      CutAt(a[1..], c, b);
      assert s[0] == a[0] != c;
      assert s[1..] == a[1..] + [c] + b;
      assert [a[0]] + a[1..] == a;
    } else {
      assert a + [c] + b == [c] + b;
    }
  }

  /** The segments of a path, split at every `/`. */
  function Split(s: string): (segs: seq<string>)
    ensures |segs| > 0 && Join(segs) == s
    ensures forall i :: 0 <= i < |segs| ==> '/' !in segs[i]
    decreases |s|
  {
    var (a, b) := Cut(s, '/');
    if b.None? then [a] else [a] + Split(b.value)
  }

  /** Segments separated by `/`. */
  function Join(segs: seq<string>): string
    requires |segs| > 0
  {
    if |segs| == 1 then segs[0] else segs[0] + "/" + Join(segs[1..])
  }

  /** Splitting the join of segments without `/` gives them back. */
  lemma {:induction false} SplitJoin(segs: seq<string>)
    requires |segs| > 0 && forall i :: 0 <= i < |segs| ==> '/' !in segs[i]
    ensures Split(Join(segs)) == segs
  {
    if |segs| > 1 {
      CutAt(segs[0], '/', Join(segs[1..]));
      SplitJoin(segs[1..]);
      assert [segs[0]] + segs[1..] == segs;
    }
  }

  function Slashes(s: string): (t: string)
    ensures |t| == |s| && '\\' !in t
    ensures forall i :: 0 <= i < |s| ==> t[i] == if s[i] == '\\' then '/' else s[i]
  {
    if |s| == 0 then "" else [if s[0] == '\\' then '/' else s[0]] + Slashes(s[1..])
  }

  /** The path percent-encode set. */
  predicate PathEncodes(ch: char)
  {
    ch <= ' ' || ch > '~' || ch in "\"#<>?`{}"
  }

  /** The special-query percent-encode set. */
  predicate QueryEncodes(ch: char)
  {
    ch <= ' ' || ch > '~' || ch in "\"#<>'"
  }

  /** The UTF-8 bytes of a character. */
  function Utf8(ch: char): (bytes: seq<nat>)
    ensures 1 <= |bytes| <= 4
    ensures ch as int < 0x80 <==> bytes == [ch as int]
  {
    var n := ch as int;
    if n < 0x80 then [n]
    else if n < 0x800 then [0xC0 + n / 64, 0x80 + n % 64]
    else if n < 0x1_0000 then [0xE0 + n / 4096, 0x80 + n / 64 % 64, 0x80 + n % 64]
    else [0xF0 + n / 0x4_0000, 0x80 + n / 4096 % 64, 0x80 + n / 64 % 64, 0x80 + n % 64]
  }

  function UpperHexDigit(d: nat): char
    requires d < 16
  {
    if d < 10 then ('0' as int + d) as char else ('A' as int + d - 10) as char
  }

  /** `%` and two upper-case hexadecimal digits for each byte. */
  function PercentBytes(bytes: seq<nat>): (s: string)
    ensures |s| == 3 * |bytes|
  {
    if |bytes| == 0 then ""
    else "%" + [UpperHexDigit(bytes[0] / 16 % 16), UpperHexDigit(bytes[0] % 16)] + PercentBytes(bytes[1..])
  }

  function Encode(s: string, inPath: bool): (t: string)
  {
    if |s| == 0 then ""
    else
      var ch := s[0];
      var enc := if inPath then PathEncodes(ch) else QueryEncodes(ch);
      (if enc then PercentBytes(Utf8(ch)) else [ch]) + Encode(s[1..], inPath)
  }

  /** Encoding leaves inert text alone. */
  lemma {:induction false} EncodeKeepsInert(s: string, inPath: bool)
    requires forall i :: 0 <= i < |s| ==> Inert(s[i])
    ensures Encode(s, inPath) == s
  {
    if |s| > 0 {
      EncodeKeepsInert(s[1..], inPath);
      assert s == [s[0]] + s[1..];
    }
  }

  function EncodeAll(segs: seq<string>): (r: seq<string>)
    ensures |r| == |segs|
    ensures forall i :: 0 <= i < |segs| ==> r[i] == Encode(segs[i], true)
  {
    seq(|segs|, i requires 0 <= i < |segs| => Encode(segs[i], true))
  }

  predicate SingleDot(seg: string)
  {
    seg in {".", "%2e", "%2E"}
  }

  predicate DoubleDot(seg: string)
  {
    seg in {"..", ".%2e", ".%2E", "%2e.", "%2E.", "%2e%2e", "%2E%2E", "%2e%2E", "%2E%2e"}
  }

  /** The path state of the URL parser: each segment is appended to `path`, except
      that `..` removes the last one and `.` adds nothing; either of them at the end
      leaves an empty last segment. */
  function Resolve(path: seq<string>, segs: seq<string>): (r: seq<string>)
    decreases |segs|
  {
    if |segs| == 0 then path
    else
      var seg := segs[0];
      var tail := if |segs| == 1 then [""] else [];
      var path' :=
        if DoubleDot(seg) then (if |path| > 0 then path[..|path| - 1] else path) + tail
        else if SingleDot(seg) then path + tail
        else path + [seg];
      Resolve(path', segs[1..])
  }

  /** Without dot segments, resolving keeps every segment. */
  lemma {:induction false} ResolveKeeps(path: seq<string>, segs: seq<string>)
    requires forall i :: 0 <= i < |segs| ==> !SingleDot(segs[i]) && !DoubleDot(segs[i])
    ensures Resolve(path, segs) == path + segs
    decreases |segs|
  {
    if |segs| > 0 {
      ResolveKeeps(path + [segs[0]], segs[1..]);
      assert path + [segs[0]] + segs[1..] == path + segs;
    }
  }

  /** Each segment after a `/`. */
  function Serialize(path: seq<string>): (s: string)
  {
    if |path| == 0 then "" else "/" + path[0] + Serialize(path[1..])
  }

  lemma {:induction false} SerializeJoin(path: seq<string>)
    requires |path| > 0
    ensures Serialize(path) == "/" + Join(path)
  {
    if |path| > 1 {
      SerializeJoin(path[1..]);
    }
  }

  /** Path and query of the text after `https://gistdb.com/`, as serialised. */
  function ParsePath(rest: string): string
  {
    var (pathText, query) := Cut(rest, '?');
    Serialize(Resolve([], EncodeAll(Split(Slashes(pathText)))))
      + (if query.Some? then "?" + Encode(query.value, false) else "")
  }

  /** The URL the cache keys an entry by. A key not of the form
      `https://gistdb.com/...` is kept as prepared; every key here has that form. */
  function UrlKey(key: string): string
  {
    var s := Cut(Prepare(key), '#').0;
    if |s| > |Origin| && s[..|Origin|] == Origin && (s[|Origin|] == '/' || s[|Origin|] == '\\')
    then Origin + ParsePath(s[|Origin| + 1..])
    else s
  }

  /** A fragment never reaches the cache: a key and the same key with `#...` appended
      name one entry. */
  lemma FragmentIgnored(key: string, fragment: string)
    requires Printable(key) && Printable(fragment) && '#' !in key
    ensures UrlKey(key + "#" + fragment) == UrlKey(key)
  {
    var k := key + "#" + fragment;
    assert Printable(k) by {
      assert forall i :: 0 <= i < |k| ==> k[i] == if i < |key| then key[i] else if i == |key| then '#' else fragment[i - |key| - 1];
    }
    PrepareKeeps(k);
    PrepareKeeps(key);
    CutAt(key, '#', fragment);
  }

  predicate InertText(s: string)
  {
    forall i :: 0 <= i < |s| ==> Inert(s[i])
  }

  lemma {:induction false} JoinChars(segs: seq<string>)
    requires |segs| > 0 && forall i :: 0 <= i < |segs| ==> InertText(segs[i])
    ensures forall i :: 0 <= i < |Join(segs)| ==> Inert(Join(segs)[i]) || Join(segs)[i] == '/'
  {
    if |segs| > 1 {
      JoinChars(segs[1..]);
      var a, b := segs[0], Join(segs[1..]);
      assert forall i :: 0 <= i < |a + "/" + b| ==> (a + "/" + b)[i] == if i < |a| then a[i] else if i == |a| then '/' else b[i - |a| - 1];
    }
  }

  lemma OriginPrintable()
    ensures Printable(Origin) && '#' !in Origin
  {
    assert Origin == ['h', 't', 't', 'p', 's', ':', '/', '/', 'g', 'i', 's', 't', 'd', 'b', '.', 'c', 'o', 'm'];
  }

  /** A printable key of this origin without a fragment has its path parsed. */
  lemma UrlKeyOfPath(body: string)
    requires Printable(body) && '#' !in body
    ensures UrlKey(Origin + "/" + body) == Origin + ParsePath(body)
  {
    var k := Origin + "/" + body;
    OriginPrintable();
    assert forall i :: 0 <= i < |k| ==> k[i] == if i < |Origin| then Origin[i] else if i == |Origin| then '/' else body[i - |Origin| - 1];
    assert Printable(k) && '#' !in k;
    PrepareKeeps(k);
    assert Cut(Prepare(k), '#').0 == k;
    assert k[..|Origin|] == Origin && k[|Origin|] == '/' && k[|Origin| + 1..] == body;
  }

  /** A path without query or backslash is split, encoded and resolved. */
  lemma ParsePathPlain(body: string)
    requires '?' !in body && '\\' !in body
    ensures ParsePath(body) == Serialize(Resolve([], EncodeAll(Split(body))))
  {
    assert Cut(body, '?') == (body, None);
    assert Slashes(body) == body;
  }

  /** A key whose path segments are inert text parses to its segments with `.` and
      `..` resolved. */
  lemma ParseSegments(segs: seq<string>)
    requires |segs| > 0 && forall i :: 0 <= i < |segs| ==> InertText(segs[i])
    ensures UrlKey(Origin + "/" + Join(segs)) == Origin + Serialize(Resolve([], segs))
  {
    var body := Join(segs);
    var empty: seq<string> := [];
    JoinPlain(segs);
    calc {
      UrlKey(Origin + "/" + body);
      { UrlKeyOfPath(body); }
      Origin + ParsePath(body);
      { ParsePathPlain(body); }
      Origin + Serialize(Resolve(empty, EncodeAll(Split(body))));
      { SplitJoin(segs); }
      Origin + Serialize(Resolve(empty, EncodeAll(segs)));
      { EncodeAllKeeps(segs); }
      Origin + Serialize(Resolve(empty, segs));
    }
  }

  /** The join of inert segments has no fragment, query, backslash or control. */
  lemma JoinPlain(segs: seq<string>)
    requires |segs| > 0 && forall i :: 0 <= i < |segs| ==> InertText(segs[i])
    ensures Printable(Join(segs)) && '#' !in Join(segs) && '?' !in Join(segs) && '\\' !in Join(segs)
    ensures forall i :: 0 <= i < |segs| ==> '/' !in segs[i]
  {
    JoinChars(segs);
    var j := Join(segs);
    forall i | 0 <= i < |j|
      ensures !ControlOrSpace(j[i]) && j[i] != '#' && j[i] != '?' && j[i] != '\\'
    {
      assert Inert(j[i]) || j[i] == '/';
    }
    forall i | 0 <= i < |segs|
      ensures '/' !in segs[i]
    {
      assert InertText(segs[i]);
    }
  }

  lemma EncodeAllKeeps(segs: seq<string>)
    requires forall i :: 0 <= i < |segs| ==> InertText(segs[i])
    ensures EncodeAll(segs) == segs
  {
    forall i | 0 <= i < |segs|
      ensures Encode(segs[i], true) == segs[i]
    {
      EncodeKeepsInert(segs[i], true);
    }
  }

  /** Inert text that is not a dot segment is a clean segment. */
  predicate Clean(seg: string)
  {
    InertText(seg) && !SingleDot(seg) && !DoubleDot(seg)
  }

  /** A key whose segments are all clean is already in the parser's normal form, so it
      names the entry it spells. */
  lemma CleanKeyFixed(segs: seq<string>)
    requires |segs| > 0 && forall i :: 0 <= i < |segs| ==> Clean(segs[i])
    ensures UrlKey(Origin + "/" + Join(segs)) == Origin + "/" + Join(segs)
  {
    assert forall i :: 0 <= i < |segs| ==> InertText(segs[i]);
    ParseSegments(segs);
    CleanPathSerialized(segs);
    ConcatAssoc(Origin, "/", Join(segs));
  }

  lemma CleanPathSerialized(segs: seq<string>)
    requires |segs| > 0 && forall i :: 0 <= i < |segs| ==> Clean(segs[i])
    ensures Serialize(Resolve([], segs)) == "/" + Join(segs)
  {
    ResolveKeepsAll(segs);
    SerializeJoin(segs);
  }

  lemma JoinFour(a: string, b: string, c: string, d: string)
    ensures Join([a, b, c, d]) == a + "/" + (b + "/" + (c + "/" + d))
  {
    JoinThree(b, c, d);
    assert [a, b, c, d][1..] == [b, c, d];
    assert Join([a, b, c, d]) == a + "/" + Join([b, c, d]);
  }

  lemma JoinThree(a: string, b: string, c: string)
    ensures Join([a, b, c]) == a + "/" + (b + "/" + c)
  {
    assert [b, c][1..] == [c];
    assert Join([b, c]) == b + "/" + Join([c]);
    assert [a, b, c][1..] == [b, c];
    assert Join([a, b, c]) == a + "/" + Join([b, c]);
  }

  lemma ConcatAssoc(a: string, b: string, c: string)
    ensures a + (b + c) == a + b + c
  {
  }

  lemma ResolveKeepsAll(segs: seq<string>)
    requires forall i :: 0 <= i < |segs| ==> Clean(segs[i])
    ensures Resolve([], segs) == segs
  {
    ResolveKeeps([], segs);
  }
}
